=== FILE: README.md ===
# qol-hooks installer, modelled in Dafny

This project models the command-line installer of the qol-hooks package in
Dafny. The package is a collection of React hooks that the installer copies
into a project as source files. Every command is a pure function from the
invocation's inputs and a file-system snapshot to a `Run`, which holds three
things: the file system after the command, how the process ended (normal
return, `process.exit(code)`, or an uncaught exception), and the console lines
printed.

The modelled code:

- **Current CLI** (`cli/index.ts`): dispatches `init`, `list`, `help` and
  `install <hook|all>`.
  - `init` writes the project configuration `{ folder, language, installedHooks }`.
  - `install` reads it, finds hooks in the shipped catalog `hooks.json`, and copies
    `<package>/ts/<Hook>.ts` or `<package>/esm/<Hook>.js` into the hooks folder.
    It uses `COPYFILE_EXCL`, so an existing file is never overwritten.
  - `list` prints the catalog's display names.
- **Legacy CLI** (`cli/index.js`): `init`, `install` and `uninstall` over a
  `{ hooksFolder }` configuration and a catalog whose values are paths.
- **Catalog generator** (`utils/generateHooksList.js`): one entry per
  `use*.ts` file, keyed by the lower-cased name.
- **README updater** (`utils/updateReadmeHooks.js`): rewrites the hook list and
  the hook-count badge between HTML comment markers.

Files:

- `wrappers.dfy`: `Option` and `Result`.
- `strings.dfy`: the JavaScript string operations the code relies on
  (`indexOf`, `lastIndexOf`, `includes`, `endsWith`, `replace` with a string
  pattern, `split`, `join`, ASCII `toLowerCase`, and decimal rendering).
- `filesystem.dfy`: paths and the file-system calls in use (`existsSync`,
  `mkdirSync`, `copyFileSync` with `COPYFILE_EXCL`, `writeFileSync`,
  `unlinkSync`), `path.resolve`, `path.join` and `path.dirname`. It also defines
  `Preserves`, the "no existing file is lost or changed" invariant.
- `console.dfy`: console lines, process status, exit codes.
- `catalog.dfy`: the catalog as an insertion-ordered object (key to `{ name, ts, js }`).
- `install.dfy`: `install <hook|all>`.
- `init.dfy`: `init`.
- `list.dfy`: `list`.
- `cli.dfy`: the current dispatcher and `help`.
- `legacy.dfy`: the legacy command-line front end.
- `generate.dfy`: the catalog generator.
- `readme.dfy`: the README updater.
- `roundtrip.dfy`: properties that tie the generator, the installer, `list`
  and the README together.

Inputs that the code gets from its environment are parameters here:

- the working directory, the configuration path and the package directory (`Install.Env`);
- the outcome of reading and parsing `hooks.json` (`Install.CatalogRead`, `LegacyCli.LegacyCatalog`);
- the answers to the interactive prompts (`InitCommand.Answers`, and the legacy answer string);
- the directory listing that the generator filters;
- the README text.

## Model

| member | source | states |
|---|---|---|
| FileSystem.CopyExclusive | cli/commands/installHook.ts:127 | An exclusive copy succeeds exactly when the source is a file, nothing (file or directory) exists at the destination, and its parent is a directory. On success it adds only the destination, holding the source's content, and leaves every other file and every directory as they were. |
| FileSystem.EnsureDir | cli/commands/init.ts:45-48 | "Create if missing" with `recursive: true` fails (ENOTDIR) exactly when the directory is missing and one of its ancestors is a regular file. Otherwise the directory exists afterwards, no file changes, and the only directories added are the directory and its missing ancestors. Nothing happens when the path already exists. |
| FileSystem.Resolve | cli/commands/installHook.ts:21 | `path.resolve(base, p)` gives an absolute `p` unchanged. For an empty or relative `p` it is `path.join(base, p)`. An absolute base gives an absolute result. |
| FileSystem.DirnameAtLastSlash | cli/commands/init.ts:56 | For a path that does not end in `/` and does not start with `//`, `path.dirname` cuts at the last `/`. It gives `.` for a path without `/`, and `/` when the only `/` left of the name leads the path. |
| FileSystem.DirnameOfJoin | cli/index.js:36 | `path.join(d, name)` with a `/`-free, non-empty name has `d` as its parent. |
| FileSystem.WriteFile | cli/commands/init.ts:56 | A write succeeds exactly when the path is not a directory and its parent is one. It stores the document at that path and keeps every other file. |
| FileSystem.Unlink | cli/index.js:76 | Unlinking succeeds exactly on an existing regular file and removes that file alone. |
| FileSystem.ResolveSegment | cli/commands/installHook.ts:105-110 | Resolving one `/`-free piece against the hooks folder yields the folder itself or a path directly inside it. |
| Catalog.Lookup | cli/commands/installHook.ts:93 | `hooks[k]` is undefined exactly when no item has key `k`. Otherwise it is the entry stored under `k`. |
| Catalog.Put | utils/generateHooksList.js:12-16 | Assigning a key that is already present keeps the catalog's length and every key's position. A new key is appended at the end. |
| Catalog.PutThenLookup | utils/generateHooksList.js:12-16 | After `hooks[k] = e`, looking up `k` gives `e`. |
| Catalog.PutLeavesOthers | utils/generateHooksList.js:12-16 | `hooks[k] = e` does not change the entry of any other key. |
| Catalog.PutKeepsDistinct | utils/generateHooksList.js:12-16 | Assignment keeps the object's keys unique. |
| Install.LoadConfig | cli/commands/installHook.ts:10-18 | The project counts as not initialised exactly when the configuration file is missing or does not parse. It counts as initialised exactly when the file is a configuration document, and the configuration returned is the stored one. |
| Install.TargetFor | cli/commands/installHook.ts:99-110 | Deriving a target fails (a TypeError in the code) exactly when the configured variant's path is missing or has no `/`. Otherwise the source is that path inside the package, and the destination is the hooks folder or a file directly inside it. |
| Install.TargetKeepsSecondPiece | cli/commands/installHook.ts:105-110 | The destination is the hooks folder joined with the second `/`-piece of the variant path, or the folder itself when that piece is empty. |
| Install.TargetOfNestedPath | cli/commands/installHook.ts:105-110 | A variant path `dir/sub/rest` copies the whole path from the package but lands at `<folder>/sub`: the pieces after the second are dropped. |
| Install.TargetOfTwoPieces | cli/commands/installHook.ts:105-110 | For a catalog path `dir/file`, the installer copies `<package>/dir/file` to `<folder>/file`: only the second `/`-piece is kept. |
| Install.WithTs | cli/commands/installHook.ts:49-51 | The `"all"` loop keeps exactly the entries with a non-empty `ts` path, whatever the configured language, in catalog order. Their number is the number of such entries, and the entry at catalog position `i` lands after every kept entry before it. |
| Install.PlanTargets | cli/commands/installHook.ts:49-68 | The planning loop yields targets exactly when every kept entry has one. The targets are index-aligned with the entries. |
| Install.CopyEach | cli/commands/installHook.ts:77-86 | The copy loop never changes or removes an existing file and creates no directory. It creates files only at planned destinations, and never where a directory stood. When the loop runs to the end, every planned destination exists. A copy error is never "already exists": a taken destination is skipped, not copied. |
| Install.CopyEachAccounts | cli/commands/installHook.ts:77-86 | Skip-and-continue accounting. In a loop that runs to the end, each target either created one file or printed one "already exists" line. A copy error ends the loop early. |
| Install.CopyEachAllSkipped | cli/commands/installHook.ts:77-86 | When every destination is already taken, the loop runs to the end without an error. It leaves the file system as it was and prints one "already exists" line per target, in order. |
| Install.CopyEachFresh | cli/commands/installHook.ts:77-86 | When the destinations are free and distinct and the sources and parent directories exist, the loop copies every target's bytes and reports nothing. |
| Install.PlannedFilesInside | cli/commands/installHook.ts:59-64 | Every file that `"all"` creates lies directly inside the hooks folder. |
| Install.InstallAll | cli/commands/installHook.ts:45-91 | `install all` keeps existing files and directories, creates files only inside the hooks folder, and never exits through `process.exit`. A derivation error is thrown before anything is copied. Otherwise the command returns normally exactly when the copy loop ends without an error. The final file system is the loop's. On a normal return the output is the "Installing all hooks..." line, the loop's skip lines, and the closing success line. |
| Install.InstallOne | cli/commands/installHook.ts:93-128 | A single install creates at most one file, directly inside the hooks folder, and keeps every existing file. Every refusal exits with 1, and every failure leaves the file system untouched. |
| Install.CopyOne | cli/commands/installHook.ts:120-128 | Once the destination is known to be free inside an existing folder, a single install either adds exactly that one file and keeps all others, or throws and changes nothing. |
| Install.InstallHook | cli/commands/installHook.ts:10-128 | The installer never changes or removes an existing file and creates no directory. Without a configuration it exits with 1. Every `process.exit` leaves the file system untouched. The file system changes only with a configuration and a loaded catalog, and every new file lies directly inside the configured folder. |
| Install.FolderCheckedFirst | cli/commands/installHook.ts:20-33 | A missing hooks folder exits with 1 before the catalog is read, whatever the catalog holds. |
| Install.UnknownHookRefused | cli/commands/installHook.ts:93-97 | A name whose lower-cased key is absent, or whose entry has no `ts` path, exits with 1 and copies nothing. This holds even in a JavaScript project. |
| Install.InstallIgnoresCase | cli/commands/installHook.ts:93 | Two names with the same lower-case form install identically, unless one of them is exactly `all`. |
| Install.SingleInstallCopies | cli/commands/installHook.ts:99-128 | Into a free slot, a single install returns normally. Its only effect is one new file at the derived destination, holding the source's content. |
| Install.SecondInstallRefused | cli/commands/installHook.ts:112-118 | Installing the same hook a second time exits with 1 and leaves the file written by the first run unchanged. |
| Install.InstallAllSkipsExisting | cli/commands/installHook.ts:75-90 | When every planned destination already exists, `install all` still returns normally. It changes nothing and prints the opening line, one "already exists" line per target in order, and the success line. |
| Install.InstallAllCreatesOnePerEntry | cli/commands/installHook.ts:45-91 | When every kept entry has a derivable target and the targets are fresh, `install all` returns normally and adds as many files as the catalog has entries with a `ts` path. Fresh means that no destination exists yet, every source file and destination parent exists, and no two destinations coincide. |
| InitCommand.AnsweredFolder | cli/commands/init.ts:20-26 | The folder answer is never empty: an empty input takes the default and any other input is kept verbatim. |
| InitCommand.Init | cli/commands/init.ts:8-59 | An existing configuration makes `init` exit with 1 and change nothing. `init` never loses or changes an existing file. At most it creates the hooks folder with its missing ancestors and writes the configuration file. A folder under a regular file throws ENOTDIR and changes nothing. A folder at or below the configuration path throws, with no file written. After a normal return the project reads back as initialised with the answered configuration, and the hooks folder exists. |
| InitCommand.ConfigLanguageIsAChoice | cli/commands/init.ts:50-54 | The stored language is `typescript` or `javascript` and the installed-hooks list starts empty. An empty folder answer stores `./src/hooks`. |
| InitCommand.InitSucceeds | cli/commands/init.ts:45-56 | On an uninitialised project whose configuration directory exists, `init` returns normally when the chosen folder exists, or when it can be created without running into a regular file or into the configuration path. |
| InitCommand.SecondInitRefused | cli/commands/init.ts:8-11 | After a successful `init`, a second one exits with 1 and the first configuration stays. |
| ListCommand.EntryLines | cli/commands/list.ts:23-26 | `list` prints one plain stdout line per catalog entry, in key order, made of two spaces, a dash, a space and the display name. |
| ListCommand.List | cli/commands/list.ts:14-28 | `list` never touches the file system. It fails exactly when the catalog cannot be read or parsed. Otherwise it prints the header, then one line per entry (none for a falsy catalog), then a blank line, and returns normally. |
| Cli.Help | cli/commands/help.ts:7-18 | `help` has no effect on the file system and always ends with exit code 1. |
| Cli.Main | cli/index.ts:9-33 | The dispatcher does the following. No command, or an unknown one, prints the command usage and exits with 1. `install` without a hook name prints the install usage and exits with 1. `init` is `init`, `list` is `list`, `help` is `help`, and `install <name>` is the installer on that name. Exit code 0 is reachable only through `init`, `list` or `install`. Only `init` and `install` change files, and no command loses an existing file. |
| Cli.ExtraArgumentsIgnored | cli/index.ts:10-11 | Arguments after the second one never change the outcome. |
| LegacyCli.LoadHooksFolder | cli/index.js:18-20 | The legacy commands get a hooks folder exactly when the configuration file is a legacy `{ hooksFolder }` document, and the folder returned is the stored `hooksFolder`. A missing configuration file is an I/O error. |
| LegacyCli.InstallPath | cli/index.js:36 | The install destination appends the catalog path verbatim after the folder and a `/`, even an absolute one. A `/`-free name lands directly inside the folder. |
| LegacyCli.UninstallPath | cli/index.js:70 | For an empty or relative catalog path, `uninstall` looks exactly where `install` copies. An absolute catalog path is used as it is. |
| LegacyCli.Install | cli/index.js:17-53 | Legacy `install` keeps every existing file and directory. Every refusal exits with 1 and every failure changes nothing. A missing hooks folder is refused, and so is an absent or empty catalog value. A normal return adds exactly one file, at `path.join(<folder>, <path>)`, which did not exist before. The file holds the bytes of `<cwd>/src/<path>`, and exactly one line is printed. |
| LegacyCli.Uninstall | cli/index.js:55-78 | Legacy `uninstall` creates and removes no directory. Every refusal exits with 1 and changes nothing. A missing hooks folder is refused, and so is an absent or empty catalog value. A normal return removes exactly the existing file at `path.resolve(<folder>, <path>)`, and nothing else. |
| LegacyCli.Init | cli/index.js:80-112 | Legacy `init` exits with 1 and changes nothing when the configuration exists. It never loses an existing file. A folder under a regular file throws ENOTDIR and changes nothing. A folder at or below the configuration path throws, with no file written. After a normal return the configuration reads back as the answered folder, and that folder exists. |
| LegacyCli.Main | cli/index.js:114-140 | The legacy program behaves as follows. A catalog that is not an object stops it with the "hooks.json not found or invalid" message. A missing or unknown command exits with 1 and changes nothing, and so does `install` or `uninstall` without a name. With a valid catalog, `init` is legacy `init`, and `install <name>` and `uninstall <name>` are legacy `install` and `uninstall` on that name. Exit code 0 needs a valid catalog and one of the three commands. |
| LegacyCli.InstallThenUninstall | cli/index.js:32-77 | For a relative catalog path, a successful legacy install followed by an uninstall of the same name returns normally and gives back the original file system. |
| Generator.Generate | utils/generateHooksList.js:7-17 | The generated catalog has unique keys and at most one entry per selected file. Each entry is `{ name, ts: "ts/<name>.ts", js: "esm/<name>.js" }` under its lower-cased name. |
| Generator.SelectedCount | utils/generateHooksList.js:9 | The count of selected files is the number of listing positions whose name contains `use` and ends in `.ts`. |
| Generator.DisplayName | utils/generateHooksList.js:11 | A name without `.ts` is kept as it is. Otherwise exactly one `.ts` (three characters) is removed. |
| Generator.DisplayNameCutsFirst | utils/generateHooksList.js:11 | The first `.ts` is removed even when it is not the extension: `useA.tsx.ts` becomes `useAx.ts`. |
| Generator.GeneratedKeys | utils/generateHooksList.js:8-12 | A key is in the generated catalog exactly when some selected file (containing `use`, ending in `.ts`) produces it. |
| Generator.LastFileWins | utils/generateHooksList.js:10-16 | When file names differ only in case, the last selected file in listing order supplies the entry under their shared key. |
| Generator.GeneratedHaveTs | utils/generateHooksList.js:14 | Every generated entry has a non-empty `ts` path. |
| RoundTrip.DisplayNameDropsSuffix | utils/generateHooksList.js:11 | When `.ts` occurs only as the suffix, the display name is the file name without `.ts`, and appending `.ts` gives the file name back. |
| RoundTrip.GeneratedNameIsInstalledName | utils/generateHooksList.js:11-14 | For a hook file `F.ts`, the generated `ts` path leads the TypeScript installer back to `F.ts`: it copies `<package>/ts/F.ts` to `<folder>/F.ts`. |
| RoundTrip.GeneratedNameIsInstalledNameJs | cli/commands/installHook.ts:99-110 | For any other language, the generated `js` path makes the installer copy `<package>/esm/F.js` to `<folder>/F.js`. |
| RoundTrip.GeneratedEntryHasTarget | cli/commands/installHook.ts:59-64 | No generated entry is skipped by `"all"`, and none makes the destination rule throw, whatever the language. |
| RoundTrip.WithTsKeepsAll | cli/commands/installHook.ts:49-51 | When every entry has a `ts` path, the `"all"` loop keeps the entries exactly and in order. |
| RoundTrip.GeneratedCatalogPlansEveryEntry | cli/commands/installHook.ts:49-68 | On a generated catalog, `install all` plans exactly one target per catalog entry for either language. |
| RoundTrip.ListMatchesReadme | cli/commands/list.ts:23-26 | When no hook name contains a newline, `list` and the README's hook list show the same names in the same order: the i-th listed line is the i-th README line indented by two spaces. |
| ReadmeUpdater.Region | utils/updateReadmeHooks.js:18-21 | The regular expression matches from the first start marker to the last end marker that begins after it. It finds nothing exactly when no start marker is followed by a non-overlapping end marker. |
| ReadmeUpdater.ReplaceRegion | utils/updateReadmeHooks.js:18-21 | Without a match, the replacement returns the text unchanged. |
| ReadmeUpdater.ReplaceKeepsOutside | utils/updateReadmeHooks.js:18-21 | A replacement keeps the text before the match and after it. The match becomes the start marker, the new body and the end marker, with the lengths adding up. |
| ReadmeUpdater.ReplaceRegionIdempotent | utils/updateReadmeHooks.js:18-21 | Replacing a marked region a second time with the same body changes nothing. |
| ReadmeUpdater.MissingMarkerKeepsText | utils/updateReadmeHooks.js:18-21 | When either marker is missing, the README is left as it was. |
| ReadmeUpdater.StableIff | utils/updateReadmeHooks.js:18-21 | A matched region is left unchanged exactly when it already holds the new body. |
| ReadmeUpdater.BadgeCountsEntries | utils/updateReadmeHooks.js:23-28 | The badge shows the number of catalog entries, but 1 for an empty catalog. Splitting the list text on newlines gives the list lines back. |
| ReadmeUpdater.UpdateReadmeIdempotent | utils/updateReadmeHooks.js:18-28 | Running the updater a second time with the same catalog leaves the README as the first run left it. This holds wherever the badge block lies relative to the hook list. |
| ReadmeUpdater.UpdateReadme | utils/updateReadmeHooks.js:6-30 | A README with neither a hook-list marker pair nor a badge marker pair comes back unchanged. Without a hook-list pair, the badge span becomes the badge markers around the shields.io badge for the entry count, and the text outside it is kept. When no hook name contains a badge marker, both regions of the result are current: replacing the list region with the current list, or the badge region with the current badge, changes nothing. |
| ReadmeUpdater.UpdateReadmeListOnly | utils/updateReadmeHooks.js:18-28 | When the README has a hook-list marker pair but no badge marker pair, and no hook name contains a badge marker, the result is the README with its list span replaced by the markers around the current list. The text before the first start marker and after the last end marker is kept. |
| ReadmeUpdater.RegionsCurrent | utils/updateReadmeHooks.js:18-28 | After the list replacement and then the badge replacement, the list region holds the current list and the badge region the current badge, provided no hook name contains a badge marker. |
| Strings.ReplaceFirst | utils/generateHooksList.js:11 | `replace` with a string pattern leaves a text without the pattern unchanged, and otherwise changes the length by exactly the difference between replacement and pattern. |
| Strings.ReplaceFirstAt | utils/generateHooksList.js:11 | `replace` with a string pattern swaps the first occurrence of the pattern, and only that one, for the replacement. |
| Strings.Split | utils/updateReadmeHooks.js:26 | `split` on one character gives one more piece than there are separators. No piece contains the separator, and joining the pieces gives the text back. |
| Strings.SplitJoinWith | utils/updateReadmeHooks.js:16-26 | Splitting the newline-joined lines gives the lines back when no line contains a newline. |
| Strings.SecondSegment | cli/commands/installHook.ts:62-63 | `p.split("/")[1]` is undefined exactly when `p` has no `/`. Otherwise it is the `/`-free piece that starts right after the first `/` and runs to the next `/` or to the end. |
| Strings.SecondSegmentOfPair | cli/commands/installHook.ts:108 | `(a + "/" + b).split("/")[1]` is `b` for `/`-free `a` and `b`. |
| Strings.SecondSegmentOfTriple | cli/commands/installHook.ts:62-63 | `(a + "/" + b + "/" + c).split("/")[1]` is `b` for `/`-free `a` and `b`, whatever `c` holds. |
| Strings.ToLowerIdempotent | cli/commands/installHook.ts:93 | Lower-casing twice is lower-casing once, so a lower-case catalog key is its own lookup key. |
| Strings.NatToString | utils/updateReadmeHooks.js:25-27 | The count in the badge is written as a non-empty string of decimal digits that denotes the count, with no leading zero: `0` is written as `0`. |

## Left out

- The console text of `help`, the `init` banner, and the prompt wording are not modelled. Colours are kept only as tags, not as escape codes.
- Cli.Help: its contract states only the exit code and the unchanged file system. The printed usage text is not modelled, so its `out` is empty.
- Paths are plain strings.
  - `path.resolve` and `path.join` do not normalise `.` or `..` segments or repeated slashes.
  - `path.dirname` is a cut at the last `/`. Node first drops trailing slashes and keeps a leading `//`, so `/a/b/` gives `/a` there and `/a/b` here, and `//a` gives `//` there and `/` here. The destinations the installer builds never end in `/`.
  - The file system is a set of files and a set of directories. It keeps no tree invariant, so a file whose parent is missing is not ruled out by the model.
- `toLowerCase` is modelled on ASCII letters only.
- `String.replace` special patterns (`$&`, `$1`, …) in the replacement text are not modelled. The replacement is literal.
- JSON is not parsed character by character. A file is either unparsable text or one of the document shapes the commands read and write. The catalog read is an input outcome.
- JavaScript object key order is modelled as insertion order. The engine puts integer-like keys first; that ordering is not modelled. Inherited properties such as `__proto__` or `constructor` as hook names are not modelled either.
- The legacy catalog's values are a path string or "another truthy value". Numbers and booleans as catalog values are not distinguished further.
- The `installedHooks` field is written as an empty list and never read. No command updates it.
- The generator's `readdirSync` and its write of `dist/hooks.json` are not modelled. The listing is an input, and the result is the catalog value.
- The README updater's file reads and its un-awaited final `writeFile` are not modelled. The updater is a function from the README text and the catalog to the new text.
- Concurrency is not modelled. Two processes racing on one destination are outside the model, apart from the exclusive copy itself.
- `CONFIG.modulePath` and `process.cwd()` are parameters. The module `cli/config.js` and the colour helper are not part of this model.
- ReadmeUpdater.ReplaceRegion: its own contract states only the no-match case. The shape of the result is stated separately by `ReadmeUpdater.ReplaceKeepsOutside`, to keep each proof small.
- ReadmeUpdater.UpdateReadme: both regions are promised current only when no hook name contains a badge marker comment. Such a name could place a badge marker inside the list, and the badge replacement would then cut into it.
- ReadmeUpdater.UpdateReadmeIdempotent: requires that no hook name contains a badge marker comment. Otherwise the badge replacement could reach into the regenerated list.
- ReadmeUpdater.BadgeCountsEntries: requires hook names without a newline. A multi-line name would be counted once per line.
- LegacyCli.InstallThenUninstall: requires a relative, non-empty catalog path. For an absolute path, `install` appends the path to the folder with `path.join`, while `uninstall` resolves it with `path.resolve` and so looks outside the folder.
- RoundTrip.GeneratedNameIsInstalledName: requires a `/`-free file name in which `.ts` occurs only as the suffix. An earlier `.ts` would be removed in its place by `replace`.

## Behaviour worth knowing

- The configuration fields are `folder`, `language` and `installedHooks`. The catalog's two paths are `ts` and `js`.
- `help` ends the process with exit code 1.
- `install all` skips entries without a `ts` path, whatever the configured language.
- In a JavaScript project, an `install all` entry with a `ts` path but no `js` path throws a TypeError while the targets are planned, before anything is copied.
- `install all` reports each skipped destination, but skips never turn into a non-zero exit code.
- A copy error inside `install all`, such as a missing source file, throws. It ends the loop and keeps the copies made so far.
- The "already exists" line of `install all` names the source path, not the destination.
- A single install refuses a hook whose entry lacks a `ts` path, even in a JavaScript project.
- The directory creation in a single install never runs. The destination's parent is the hooks folder, whose existence was checked first.
- A configuration file that parses but lacks a `folder` is not reported as "not initialized". It throws a TypeError from `path.resolve`.
- The README badge counts the pieces of `split("\n")`, so an empty catalog shows a count of 1.
- `init` throws when the chosen folder lies under a regular file: the recursive `mkdirSync` fails with ENOTDIR. It also throws when the folder lies at or below the configuration file's path: the `mkdirSync` turns that path into a directory, and the configuration write then fails with EISDIR.

=== FILE: catalog.dfy ===
/**
 * The hook catalog (`hooks.json`): a JSON object from lookup key to
 * `{ name, ts, js }`. JavaScript objects keep string keys in insertion
 * order, so the catalog is an ordered sequence of key/entry items.
 */
module Catalog {
  import opened Wrappers

  /** One catalog value; either path may be missing from a hand-edited catalog. */
  datatype Entry = Entry(name: string, ts: Option<string>, js: Option<string>)

  datatype Item = Item(key: string, entry: Entry)

  type Catalog = seq<Item>

  /** Object keys are unique. */
  predicate DistinctKeys(c: Catalog) {
    forall i, j :: 0 <= i < j < |c| ==> c[i].key != c[j].key
  }

  /** A catalog as `JSON.parse` returns it: an object, so no key appears twice. */
  type KeyedCatalog = c: Catalog | DistinctKeys(c) witness []

  predicate HasKey(c: Catalog, k: string) {
    exists i :: 0 <= i < |c| && c[i].key == k
  }

  /** `hooks[k]`: the entry stored under `k`, or `undefined`. */
  function Lookup(c: Catalog, k: string): (r: Option<Entry>)
    ensures r.None? <==> !HasKey(c, k)
    ensures r.Some? ==> exists i :: 0 <= i < |c| && c[i].key == k && c[i].entry == r.value
  {
    if |c| == 0 then None
    else if c[0].key == k then Some(c[0].entry)
    else
      var r := Lookup(c[1..], k);
      assert HasKey(c[1..], k) ==> HasKey(c, k);
      assert HasKey(c, k) ==> HasKey(c[1..], k) by {
        if HasKey(c, k) {
          var i :| 0 <= i < |c| && c[i].key == k;
          assert c[1..][i - 1].key == k;
        }
      }
      r
  }

  /** With unique keys, the entry stored at a position is the one found under its key. */
  lemma {:induction false} LookupAt(c: Catalog, i: int)
    requires DistinctKeys(c) && 0 <= i < |c|
    ensures Lookup(c, c[i].key) == Some(c[i].entry)
  {
    if i > 0 {
      assert DistinctKeys(c[1..]);
      LookupAt(c[1..], i - 1);
    }
  }

  /**
   * `hooks[k] = e`: an existing key keeps its position and takes the new
   * value; a new key is appended.
   */
  function Put(c: Catalog, k: string, e: Entry): (r: Catalog)
    ensures HasKey(c, k) ==> |r| == |c|
    ensures !HasKey(c, k) ==> r == c + [Item(k, e)]
    ensures forall i :: 0 <= i < |c| ==> r[i].key == c[i].key
  {
    if |c| == 0 then [Item(k, e)]
    else if c[0].key == k then [Item(k, e)] + c[1..]
    else
      var rest := Put(c[1..], k, e);
      assert HasKey(c[1..], k) <==> HasKey(c, k) by {
        if HasKey(c, k) {
          var i :| 0 <= i < |c| && c[i].key == k;
          assert c[1..][i - 1].key == k;
        }
      }
      var r := [c[0]] + rest;
      assert !HasKey(c, k) ==> r == c + [Item(k, e)] by {
        if !HasKey(c, k) {
          assert c == [c[0]] + c[1..];
        }
      }
      r
  }

  /** After `hooks[k] = e`, looking up `k` finds `e`. */
  lemma {:induction false} PutThenLookup(c: Catalog, k: string, e: Entry)
    ensures Lookup(Put(c, k, e), k) == Some(e)
  {
    if |c| > 0 && c[0].key != k {
      PutThenLookup(c[1..], k, e);
    }
  }

  /** `hooks[k] = e` leaves every other key's entry alone. */
  lemma {:induction false} PutLeavesOthers(c: Catalog, k: string, e: Entry, k': string)
    requires k' != k
    ensures Lookup(Put(c, k, e), k') == Lookup(c, k')
  {
    if |c| > 0 && c[0].key != k {
      PutLeavesOthers(c[1..], k, e, k');
    }
  }

  /** Assigning a key keeps the keys unique. */
  lemma PutKeepsDistinct(c: Catalog, k: string, e: Entry)
    requires DistinctKeys(c)
    ensures DistinctKeys(Put(c, k, e))
  {
    var r := Put(c, k, e);
    if !HasKey(c, k) {
      assert forall i :: 0 <= i < |c| ==> r[i].key != k;
    }
  }

  /** After `hooks[k] = e` every item is either the assigned one or an old item at its old position. */
  lemma {:induction false} PutItems(c: Catalog, k: string, e: Entry)
    ensures var r := Put(c, k, e);
            forall i :: 0 <= i < |r| ==> r[i] == Item(k, e) || (i < |c| && r[i] == c[i])
  {
    if |c| > 0 && c[0].key != k {
      PutItems(c[1..], k, e);
      var rest := Put(c[1..], k, e);
      var r := Put(c, k, e);
      assert r == [c[0]] + rest;
      forall i | 0 < i < |r| ensures r[i] == Item(k, e) || (i < |c| && r[i] == c[i]) {
        assert r[i] == rest[i - 1];
        assert i - 1 < |c[1..]| ==> c[1..][i - 1] == c[i];
      }
    }
  }
}

=== FILE: cli.dfy ===
/**
 * The current command-line front end: picks a command from the first
 * argument and hands the second to the installer unchanged.
 */
module Cli {
  import opened FileSystem
  import opened Console
  import opened Install
  import opened InitCommand
  import opened ListCommand

  /** What a run reads besides its arguments: paths, the shipped catalog, and the prompt answers. */
  datatype Context = Context(env: Env, catalog: CatalogRead, answers: Answers)

  const InstallUsage: Line := Error(Red, "Usage: npx qol-hooks install <hook|all>")
  const CommandUsage: Line := Error(Red, "Usage: npx qol-hooks <init|install|list>")

  /** `help()`: prints the command overview and always ends the process with status 1. */
  function Help(fs: FS): (r: Run)
    ensures r.fs == fs && ExitCode(r.status) == 1
  {
    Run(fs, Exited(1), [])
  }

  /** Is the command name one that may end with status 0? */
  predicate Succeedable(command: string) {
    command == "init" || command == "list" || command == "install"
  }

  /** `main()` over `process.argv.slice(2)`. */
  function Main(ctx: Context, fs: FS, args: seq<string>): (r: Run)
    ensures |args| == 0 ==> r == Run(fs, Exited(1), [CommandUsage])
    ensures |args| > 0 && !(args[0] in {"init", "list", "help", "install"}) ==> r == Run(fs, Exited(1), [CommandUsage])
    ensures |args| > 0 && args[0] == "init" ==> r == Init(ctx.env, fs, ctx.answers)
    ensures |args| > 0 && args[0] == "list" ==> r == List(fs, ctx.catalog)
    ensures |args| > 0 && args[0] == "help" ==> r == Help(fs)
    ensures |args| > 0 && args[0] == "install" && (|args| == 1 || args[1] == "") ==>
              r == Run(fs, Exited(1), [InstallUsage])
    ensures |args| >= 2 && args[0] == "install" && args[1] != "" ==>
              r == InstallHook(ctx.env, fs, ctx.catalog, args[1])
    ensures ExitCode(r.status) == 0 ==> |args| > 0 && Succeedable(args[0])
    ensures r.fs != fs ==> |args| > 0 && (args[0] == "init" || args[0] == "install")
    ensures Preserves(fs, r.fs)
  {
    if |args| == 0 then Run(fs, Exited(1), [CommandUsage])
    else
      match args[0]
      case "init" => Init(ctx.env, fs, ctx.answers)
      case "list" => List(fs, ctx.catalog)
      case "help" => Help(fs)
      case "install" =>
        if |args| == 1 || args[1] == "" then Run(fs, Exited(1), [InstallUsage])
        else InstallHook(ctx.env, fs, ctx.catalog, args[1])
      case _ => Run(fs, Exited(1), [CommandUsage])
  }

  /** Only the first two arguments are ever looked at. */
  lemma ExtraArgumentsIgnored(ctx: Context, fs: FS, args: seq<string>)
    requires |args| >= 2
    ensures Main(ctx, fs, args) == Main(ctx, fs, args[..2])
  {
    assert args[..2][0] == args[0] && args[..2][1] == args[1];
  }
}

=== FILE: console.dfy ===
/**
 * What one invocation of a command leaves behind: the file system, how the
 * process ends, and the lines written to the console. Colouring is kept as
 * the tag passed to the colour helper rather than as escape codes.
 */
module Console {
  import opened FileSystem

  /** The colour helper's tags in use; `Plain` is text printed without it. */
  datatype Tag = Plain | Red | Green | Yellow | Cyan

  datatype Stream = Stdout | Stderr

  datatype Line = Line(stream: Stream, tag: Tag, text: string)

  /** `console.log(color(tag, text))`. */
  function Log(tag: Tag, text: string): Line {
    Line(Stdout, tag, text)
  }

  /** `console.error(color(tag, text))`. */
  function Error(tag: Tag, text: string): Line {
    Line(Stderr, tag, text)
  }

  /** Exceptions that escape a command and end the process. */
  datatype Thrown = TypeError | ParseError | Io(error: IoError)

  /** A normal return, an explicit `process.exit(code)`, or an uncaught exception. */
  datatype Status = Returned | Exited(code: int) | Threw(error: Thrown)

  /** The process exit code; an uncaught exception (or rejected promise) ends with 1. */
  function ExitCode(s: Status): int {
    match s
    case Returned => 0
    case Exited(c) => c
    case Threw(_) => 1
  }

  datatype Run = Run(fs: FS, status: Status, out: seq<Line>)
}

=== FILE: filesystem.dfy ===
/**
 * The slice of Node's `fs` and `path` modules the installer uses, over an
 * immutable file system: a map from path to document plus a set of
 * directories. Paths are plain strings; `path.resolve` and `path.join` are
 * modelled as joins of segments without `.`/`..` normalisation.
 */
module FileSystem {
  import opened Wrappers
  import opened Strings

  type Path = string

  /** A path that starts at the root, as every result of `path.resolve` and `process.cwd()` does. */
  type AbsPath = p: Path | |p| > 0 && p[0] == '/' witness "/"

  /** The project configuration written by the current `init`. */
  datatype Config = Config(folder: string, language: string, installedHooks: seq<string>)

  /**
   * A file's content as `JSON.parse` would see it: `Text` does not parse as
   * JSON (hook sources, README files, truncated documents); the other cases
   * are the JSON documents the two command-line front ends read and write.
   */
  datatype Doc =
    | Text(body: string)
    | ConfigJson(config: Config)
    | LegacyConfigJson(hooksFolder: string)
    | OtherJson

  datatype FS = FS(files: map<Path, Doc>, dirs: set<Path>)

  /** `fs.existsSync(p)`: true for files and for directories. */
  predicate Exists(fs: FS, p: Path) {
    p in fs.files || p in fs.dirs
  }

  /** The `errno` kinds a failing file-system call throws. */
  datatype IoError = AlreadyExists | NoSuchFile | NotADirectory | IsADirectory

  /** `path.resolve(base, p)`: an absolute `p` wins, an empty `p` is skipped. */
  function Resolve(base: Path, p: string): (r: Path)
    ensures |p| > 0 && p[0] == '/' ==> r == p
    ensures (p == "" || p[0] != '/') ==> r == Join(base, p)
    ensures |base| > 0 && base[0] == '/' ==> |r| > 0 && r[0] == '/'
  {
    if |p| > 0 && p[0] == '/' then p
    else if p == "" then base
    else base + "/" + p
  }

  /** `path.join(dir, p)`: always appends, even an absolute `p`; an empty `p` is dropped. */
  function Join(dir: Path, p: string): (r: Path)
  {
    if p == "" then dir else dir + "/" + p
  }

  /** `path.dirname(p)`: everything before the last `/`. */
  function Dirname(p: Path): Path {
    match LastIndexOf(p, "/")
    case None => "."
    case Some(i) => if i == 0 then "/" else p[..i]
  }

  /** The parent is cut at the last `/`: "." without one, "/" when that `/` leads the path. */
  lemma DirnameAtLastSlash(p: Path)
    ensures '/' !in p ==> Dirname(p) == "."
    ensures var r := Dirname(p);
            '/' in p && r != "/" ==> |r| < |p| && p[..|r|] == r && p[|r|] == '/' && '/' !in p[|r| + 1..]
    ensures '/' in p && Dirname(p) == "/" ==> p[0] == '/' && forall k :: 1 < k < |p| ==> p[k] != '/'
  {
    match LastIndexOf(p, "/")
    case None =>
      forall k | 0 <= k < |p| ensures p[k] != '/' {
        assert p[k..k + 1] == [p[k]];
        assert !Occurs(p, "/", k);
      }
    case Some(i) =>
      OccursChar(p, "/", i, i);
      forall k | i < k < |p| ensures p[k] != '/' {
        assert p[k..k + 1] == [p[k]];
        assert !Occurs(p, "/", k);
      }
  }

  /** A single file name joined onto a directory has that directory as its parent. */
  lemma DirnameOfJoin(d: Path, s: string)
    requires |d| > 0 && s != "" && '/' !in s
    ensures Dirname(Join(d, s)) == d
  {
    var p := Join(d, s);
    var r := Dirname(p);
    DirnameAtLastSlash(p);
    assert p[|d|] == '/';
    if r == "/" {
      assert |d| == 1;
    }
  }

  /** Resolving one `/`-free piece against a directory names that directory or an entry directly inside it. */
  lemma ResolveSegment(d: AbsPath, seg: string)
    requires '/' !in seg
    ensures Resolve(d, seg) == d || Dirname(Resolve(d, seg)) == d
  {
    if seg != "" {
      assert seg[0] != '/';
      DirnameOfJoin(d, seg);
    }
  }

  /** The proper ancestors of `d` below the root: every prefix that ends just before a `/`. */
  function Ancestors(d: Path): set<Path> {
    set k | 0 < k < |d| && d[k] == '/' :: d[..k]
  }

  /** Some ancestor of `d` is a regular file, so no directory can be created at `d`. */
  predicate UnderFile(fs: FS, d: Path) {
    exists a :: a in Ancestors(d) && a in fs.files
  }

  /**
   * `if (!fs.existsSync(d)) fs.mkdirSync(d, { recursive: true })`: creates
   * `d` together with its missing ancestors, and fails with ENOTDIR when
   * one of the ancestors is a regular file.
   */
  function EnsureDir(fs: FS, d: Path): (r: Result<FS, IoError>)
    ensures Exists(fs, d) ==> r == Ok(fs)
    ensures r.Err? <==> !Exists(fs, d) && UnderFile(fs, d)
    ensures r.Err? ==> r.error == NotADirectory
    ensures r.Ok? ==> Exists(r.value, d) && r.value.files == fs.files
    ensures r.Ok? ==> fs.dirs <= r.value.dirs <= fs.dirs + {d} + Ancestors(d)
    ensures r.Ok? && !Exists(fs, d) ==> forall a :: a in Ancestors(d) ==> Exists(r.value, a)
  {
    if Exists(fs, d) then Ok(fs)
    else if UnderFile(fs, d) then Err(NotADirectory)
    else Ok(fs.(dirs := fs.dirs + {d} + Ancestors(d)))
  }

  /**
   * `fs.copyFileSync(src, dst, COPYFILE_EXCL)`: the copy is refused when
   * anything already exists at `dst`, so it can never overwrite.
   */
  function CopyExclusive(fs: FS, src: Path, dst: Path): (r: Result<FS, IoError>)
    ensures Exists(fs, dst) ==> r.Err?
    ensures r == Err(AlreadyExists) ==> Exists(fs, dst)
    ensures r.Ok? <==> src in fs.files && !Exists(fs, dst) && Dirname(dst) in fs.dirs
    ensures r.Ok? ==> r.value.dirs == fs.dirs && dst in r.value.files
                      && r.value.files[dst] == fs.files[src]
                      && r.value.files.Keys == fs.files.Keys + {dst}
    ensures r.Ok? ==> forall p :: p in fs.files ==> r.value.files[p] == fs.files[p]
  {
    if src !in fs.files then Err(if src in fs.dirs then IsADirectory else NoSuchFile)
    else if Exists(fs, dst) then Err(AlreadyExists)
    else if Dirname(dst) !in fs.dirs then Err(if Dirname(dst) in fs.files then NotADirectory else NoSuchFile)
    else Ok(fs.(files := fs.files[dst := fs.files[src]]))
  }

  /** `fs.writeFileSync(p, doc)`: creates or replaces a regular file. */
  function WriteFile(fs: FS, p: Path, doc: Doc): (r: Result<FS, IoError>)
    ensures r.Ok? <==> p !in fs.dirs && Dirname(p) in fs.dirs
    ensures r.Ok? ==> r.value.dirs == fs.dirs && p in r.value.files && r.value.files[p] == doc
    ensures r.Ok? ==> forall q :: q in fs.files && q != p ==> q in r.value.files && r.value.files[q] == fs.files[q]
    ensures r.Ok? ==> r.value.files.Keys == fs.files.Keys + {p}
  {
    if p in fs.dirs then Err(IsADirectory)
    else if Dirname(p) !in fs.dirs then Err(if Dirname(p) in fs.files then NotADirectory else NoSuchFile)
    else Ok(fs.(files := fs.files[p := doc]))
  }

  /** `fs.unlinkSync(p)`: removes a regular file, refuses directories and missing paths. */
  function Unlink(fs: FS, p: Path): (r: Result<FS, IoError>)
    ensures r.Ok? <==> p in fs.files
    ensures r.Ok? ==> r.value.dirs == fs.dirs && r.value.files.Keys == fs.files.Keys - {p}
    ensures r.Ok? ==> forall q :: q in r.value.files ==> r.value.files[q] == fs.files[q]
  {
    if p in fs.files then Ok(fs.(files := fs.files - {p}))
    else Err(if p in fs.dirs then IsADirectory else NoSuchFile)
  }

  /** No file that existed before has disappeared or changed: the installer's safety invariant. */
  predicate Preserves(before: FS, after: FS) {
    forall p :: p in before.files ==> p in after.files && after.files[p] == before.files[p]
  }
}

=== FILE: generate.dfy ===
/**
 * The catalog generator: one catalog entry per hook source file whose name
 * contains "use" and ends in ".ts", keyed by the lower-cased hook name, with
 * the paths of the compiled TypeScript and ES module copies.
 */
module Generator {
  import opened Wrappers
  import opened Strings
  import opened Catalog

  /** The listing filter. */
  predicate Selected(file: string) {
    Contains(file, "use") && EndsWith(file, ".ts")
  }

  /** `file.replace(".ts", "")`: the first ".ts" removed, wherever it is. */
  function DisplayName(file: string): (name: string)
    ensures !Contains(file, ".ts") ==> name == file
    ensures Contains(file, ".ts") ==> |name| == |file| - 3
  {
    ReplaceFirst(file, ".ts", "")
  }

  /** The first ".ts" is removed even when it is not the extension. */
  lemma DisplayNameCutsFirst()
    ensures DisplayName("useA.tsx.ts") == "useAx.ts"
  {
    var f := "useA.tsx.ts";
    assert Occurs(f, ".ts", 4);
    forall m | 0 <= m < 4 ensures !Occurs(f, ".ts", m) {
      assert f[m..m + 3][0] == f[m];
    }
    ReplaceFirstAt(f, ".ts", "", 4);
  }

  /** The lookup key: the display name lower-cased. */
  function KeyOf(file: string): string {
    ToLower(DisplayName(file))
  }

  /** The record stored for a hook name. */
  function EntryFor(name: string): Entry {
    Entry(name, Some("ts/" + name + ".ts"), Some("esm/" + name + ".js"))
  }

  /** Is the item the one generated for its display name, under that name's lower-cased key? */
  predicate WellFormed(it: Item) {
    it.entry == EntryFor(it.entry.name) && it.key == ToLower(it.entry.name)
  }

  /** The positions of the selected files in a listing. */
  function SelectedPositions(files: seq<string>): set<int> {
    set i | 0 <= i < |files| && Selected(files[i])
  }

  /** Number of selected files in a listing, counted one file at a time. */
  function SelectedCount(files: seq<string>): (n: nat)
    ensures n == |SelectedPositions(files)|
    ensures n <= |files|
  {
    if |files| == 0 then 0
    else
      SelectedStep(files);
      SelectedCount(files[..|files| - 1]) + (if Selected(files[|files| - 1]) then 1 else 0)
  }

  /** The last file adds its position exactly when it is selected. */
  lemma SelectedStep(files: seq<string>)
    requires |files| > 0
    ensures var n := |files| - 1;
            |SelectedPositions(files)| == |SelectedPositions(files[..n])| + (if Selected(files[n]) then 1 else 0)
  {
    var n := |files| - 1;
    assert SelectedPositions(files) == SelectedPositions(files[..n]) + (if Selected(files[n]) then {n} else {});
    assert n !in SelectedPositions(files[..n]);
  }

  /**
   * The object built by the `map` callback over the directory listing, in
   * listing order: each selected file assigns its key, so a later file with
   * the same key overwrites the entry but keeps the key's position.
   */
  function Generate(files: seq<string>): (c: Catalog)
    ensures DistinctKeys(c)
    ensures |c| <= SelectedCount(files)
    ensures forall i :: 0 <= i < |c| ==> WellFormed(c[i])
  {
    if |files| == 0 then []
    else
      var prev := Generate(files[..|files| - 1]);
      var f := files[|files| - 1];
      if !Selected(f) then prev
      else
        var name := DisplayName(f);
        var r := Put(prev, KeyOf(f), EntryFor(name));
        PutKeepsDistinct(prev, KeyOf(f), EntryFor(name));
        PutItems(prev, KeyOf(f), EntryFor(name));
        r
  }

  /** Some selected file in the listing produces the key `k`. */
  predicate Produces(files: seq<string>, k: string) {
    exists j :: 0 <= j < |files| && Selected(files[j]) && KeyOf(files[j]) == k
  }

  /** Splitting off the last file of the listing. */
  lemma ProducesLast(files: seq<string>, k: string)
    requires |files| > 0
    ensures Produces(files, k) <==>
            Produces(files[..|files| - 1], k) || (Selected(files[|files| - 1]) && KeyOf(files[|files| - 1]) == k)
  {
    var n := |files| - 1;
    var init := files[..n];
    if Produces(init, k) {
      var j :| 0 <= j < |init| && Selected(init[j]) && KeyOf(init[j]) == k;
      assert files[j] == init[j];
      ProducedAt(files, k, j);
    }
    if Selected(files[n]) && KeyOf(files[n]) == k {
      ProducedAt(files, k, n);
    }
    if Produces(files, k) {
      var j :| 0 <= j < |files| && Selected(files[j]) && KeyOf(files[j]) == k;
      ProducedEarlierOrLast(files, k, j);
    }
  }

  /** A producing position is the last one or one of the earlier files. */
  lemma ProducedEarlierOrLast(files: seq<string>, k: string, j: int)
    requires 0 <= j < |files| && Selected(files[j]) && KeyOf(files[j]) == k
    ensures Produces(files[..|files| - 1], k) || (Selected(files[|files| - 1]) && KeyOf(files[|files| - 1]) == k)
  {
    if j < |files| - 1 {
      assert files[..|files| - 1][j] == files[j];
      ProducedAt(files[..|files| - 1], k, j);
    }
  }

  /** A selected file at a position produces its key. */
  lemma ProducedAt(files: seq<string>, k: string, j: int)
    requires 0 <= j < |files| && Selected(files[j]) && KeyOf(files[j]) == k
    ensures Produces(files, k)
  {
  }

  /** Assigning a key adds exactly that key. */
  lemma PutHasKey(c: Catalog, k: string, e: Entry, k': string)
    ensures HasKey(Put(c, k, e), k') <==> HasKey(c, k') || k' == k
  {
    var r := Put(c, k, e);
    if HasKey(r, k') && !HasKey(c, k') {
      var i :| 0 <= i < |r| && r[i].key == k';
      PutItems(c, k, e);
    }
    if k' == k {
      PutThenLookup(c, k, e);
    }
  }

  /** A key is in the catalog exactly when some selected file produces it. */
  lemma {:induction false} GeneratedKeys(files: seq<string>, k: string)
    ensures HasKey(Generate(files), k) <==> Produces(files, k)
  {
    if |files| > 0 {
      var init := files[..|files| - 1];
      var f := files[|files| - 1];
      GeneratedKeys(init, k);
      ProducesLast(files, k);
      if Selected(f) {
        PutHasKey(Generate(init), KeyOf(f), EntryFor(DisplayName(f)), k);
      }
    }
  }

  /**
   * Names differing only in case collapse to one key, and the last selected
   * file in listing order with that key supplies the entry.
   */
  lemma {:induction false} LastFileWins(files: seq<string>, j: int)
    requires 0 <= j < |files| && Selected(files[j])
    requires forall m :: j < m < |files| && Selected(files[m]) ==> KeyOf(files[m]) != KeyOf(files[j])
    ensures Lookup(Generate(files), KeyOf(files[j])) == Some(EntryFor(DisplayName(files[j])))
  {
    var init := files[..|files| - 1];
    var f := files[|files| - 1];
    if j == |files| - 1 {
      PutThenLookup(Generate(init), KeyOf(f), EntryFor(DisplayName(f)));
    } else {
      assert init[j] == files[j];
      assert forall m :: j < m < |init| ==> init[m] == files[m];
      LastFileWins(init, j);
      if Selected(f) {
        PutLeavesOthers(Generate(init), KeyOf(f), EntryFor(DisplayName(f)), KeyOf(files[j]));
      }
    }
  }

  /** Every generated entry has a non-empty `ts` path. */
  lemma GeneratedHaveTs(files: seq<string>)
    ensures forall i :: 0 <= i < |Generate(files)| ==>
              var e := Generate(files)[i].entry; e.ts.Some? && e.ts.value != ""
  {
  }
}

=== FILE: init.dfy ===
/**
 * The current `init` command: a two-state machine keyed on whether the
 * configuration file exists. The interactive prompt is replaced by its
 * answers, which are inputs here.
 */
module InitCommand {
  import opened Strings
  import opened FileSystem
  import opened Console
  import opened Install

  /** The folder the prompt offers when the user just presses enter. */
  const DefaultFolder: string := "./src/hooks"

  /** The two entries of the language list prompt. */
  datatype LanguageChoice = TypeScriptChoice | JavaScriptChoice

  /** The `value` of each list entry. */
  function ChoiceValue(l: LanguageChoice): string {
    match l
    case TypeScriptChoice => "typescript"
    case JavaScriptChoice => "javascript"
  }

  /** What the user typed for the folder and picked for the language. */
  datatype Answers = Answers(folder: string, language: LanguageChoice)

  /** An input prompt returns its default for an empty answer. */
  function AnsweredFolder(input: string): (folder: string)
    ensures folder != ""
    ensures input != "" ==> folder == input
  {
    if input == "" then DefaultFolder else input
  }

  /** The record `init` serialises: folder verbatim, language lower-cased, no installed hooks. */
  function ConfigFor(answers: Answers): Config {
    Config(AnsweredFolder(answers.folder), ToLower(ChoiceValue(answers.language)), [])
  }

  /**
   * `init()`: refuses when the configuration file exists; otherwise creates
   * the hooks folder if needed and writes the configuration. Either step
   * can throw: the folder sits under a regular file, or the folder (or one
   * of the directories it needed) is the configuration path itself.
   */
  function Init(env: Env, fs: FS, answers: Answers): (r: Run)
    ensures Exists(fs, env.configPath) ==> r.status == Exited(1) && r.fs == fs
    ensures Preserves(fs, r.fs)
    ensures r.status.Returned? ==> LoadConfig(r.fs, env.configPath) == Initialized(ConfigFor(answers))
    ensures r.status.Returned? ==> Exists(r.fs, Destination(env, ConfigFor(answers)))
    ensures var d := Destination(env, ConfigFor(answers));
            fs.dirs <= r.fs.dirs <= fs.dirs + {d} + Ancestors(d)
    ensures r.fs.files.Keys <= fs.files.Keys + {env.configPath}
    ensures var d := Destination(env, ConfigFor(answers));
            !Exists(fs, env.configPath) && !Exists(fs, d) && UnderFile(fs, d) ==>
              r.status == Threw(Io(NotADirectory)) && r.fs == fs
    ensures var d := Destination(env, ConfigFor(answers));
            !Exists(fs, env.configPath) && !Exists(fs, d) && env.configPath in Ancestors(d) + {d} ==>
              r.status.Threw? && r.fs.files == fs.files
  {
    if Exists(fs, env.configPath) then
      Run(fs, Exited(1), [Error(Red, "QOL Hooks is already initialized.\n")])
    else
      var config := ConfigFor(answers);
      match EnsureDir(fs, Destination(env, config))
      case Err(e) => Run(fs, Threw(Io(e)), [])
      case Ok(fs1) =>
        match WriteFile(fs1, env.configPath, ConfigJson(config))
        case Err(e) => Run(fs1, Threw(Io(e)), [])
        case Ok(fs2) =>
          Run(fs2, Returned, [Log(Plain, "Hooks folder set to \"" + config.folder + "\""),
                              Log(Green, "QOL Hooks initialized!\n")])
  }

  /** The written language is one of the two prompt values, already in lower case. */
  lemma ConfigLanguageIsAChoice(answers: Answers)
    ensures ConfigFor(answers).language == "typescript" || ConfigFor(answers).language == "javascript"
    ensures ConfigFor(answers).installedHooks == []
    ensures answers.folder == "" ==> ConfigFor(answers).folder == "./src/hooks"
  {
    var v := ChoiceValue(answers.language);
    assert forall i :: 0 <= i < |v| ==> !('A' <= v[i] <= 'Z');
    assert ToLower(v) == v;
  }

  /**
   * `init` succeeds on an uninitialised project whose configuration
   * directory exists, when the folder already exists or can be created
   * without running into a regular file or into the configuration path.
   */
  lemma InitSucceeds(env: Env, fs: FS, answers: Answers)
    requires !Exists(fs, env.configPath)
    requires Dirname(env.configPath) in fs.dirs
    requires var d := Destination(env, ConfigFor(answers));
             Exists(fs, d) || (!UnderFile(fs, d) && env.configPath !in Ancestors(d) + {d})
    ensures Init(env, fs, answers).status == Returned
  {
  }

  /**
   * After a successful `init` the project is initialised: a second `init`
   * takes the failure branch and the stored configuration stays the first
   * one, whatever the second answers are.
   */
  lemma SecondInitRefused(env: Env, fs: FS, first: Answers, second: Answers)
    requires Init(env, fs, first).status == Returned
    ensures var r1 := Init(env, fs, first);
            var r2 := Init(env, r1.fs, second);
            && r2.status == Exited(1)
            && r2.fs == r1.fs
            && LoadConfig(r2.fs, env.configPath) == Initialized(ConfigFor(first))
  {
  }
}

=== FILE: install.dfy ===
/**
 * The current `install <hook|all>` command: load the project configuration,
 * check the hooks folder, read the catalog, derive (source, destination)
 * pairs with the `split("/")[1]` rule, and copy without ever overwriting.
 */
module Install {
  import opened Wrappers
  import opened Strings
  import opened FileSystem
  import opened Console
  import opened Catalog

  /**
   * The invocation's fixed paths: `process.cwd()`, `CONFIG.configPath`, and
   * the package directory `path.resolve(CONFIG.modulePath, "..")` that holds
   * `hooks.json` and the `ts/` and `esm/` sources.
   */
  datatype Env = Env(cwd: AbsPath, configPath: Path, packageRoot: Path)

  /** Reading and parsing `hooks.json`: a read or parse error, a falsy JSON value, or an object. */
  datatype CatalogRead = Unreadable | Falsy | Loaded(catalog: KeyedCatalog)

  /** The argument that selects every catalog entry; compared exactly, never case-folded. */
  const AllHooks: string := "all"

  /** The only `language` value that selects the `ts` variant. */
  const TypeScript: string := "typescript"

  /** Outcome of reading the configuration file. */
  datatype ConfigLoad = NotInitialized | Malformed | Initialized(config: Config)

  /**
   * `JSON.parse(fs.readFileSync(configPath))` inside the installer's
   * try/catch: a missing, unreadable or non-JSON file is "not initialized";
   * JSON of another shape parses but has no `folder`.
   */
  function LoadConfig(fs: FS, configPath: Path): (r: ConfigLoad)
    ensures r.NotInitialized? <==> configPath !in fs.files || fs.files[configPath].Text?
    ensures r.Initialized? <==> configPath in fs.files && fs.files[configPath].ConfigJson?
    ensures r.Initialized? ==> r.config == fs.files[configPath].config
  {
    if configPath !in fs.files then NotInitialized
    else match fs.files[configPath]
      case Text(_) => NotInitialized
      case ConfigJson(cfg) => Initialized(cfg)
      case _ => Malformed
  }

  /** The hooks folder, `path.resolve(process.cwd(), folder)`. */
  function Destination(env: Env, cfg: Config): (d: AbsPath)
  {
    Resolve(env.cwd, cfg.folder)
  }

  /** `hookPath?.ts` is truthy: present and not the empty string. */
  predicate HasTs(e: Entry) {
    e.ts.Some? && e.ts.value != ""
  }

  /** The catalog path for the configured language: `ts` for exactly "typescript", `js` otherwise. */
  function VariantPath(e: Entry, language: string): Option<string> {
    if language == TypeScript then e.ts else e.js
  }

  datatype Target = Target(source: Path, dest: Path)

  /**
   * The source inside the package and the destination inside the hooks
   * folder. The destination keeps only the second `/`-separated piece of the
   * same variant path; a missing path or one without `/` makes `path.resolve`
   * throw a TypeError, modelled as None.
   */
  function TargetFor(e: Entry, language: string, root: Path, destination: AbsPath): (r: Option<Target>)
    ensures r.None? <==> VariantPath(e, language).None? || '/' !in VariantPath(e, language).value
    ensures r.Some? ==> r.value.source == Resolve(root, VariantPath(e, language).value)
    ensures r.Some? ==> r.value.dest == destination || Dirname(r.value.dest) == destination
  {
    match VariantPath(e, language)
    case None => None
    case Some(p) =>
      match SecondSegment(p)
      case None => None
      case Some(seg) =>
        ResolveSegment(destination, seg);
        Some(Target(Resolve(root, p), Resolve(destination, seg)))
  }

  /** The positions below `n` whose entry has a `ts` path. */
  function TsPositions(c: Catalog, n: nat): set<int>
    requires n <= |c|
  {
    set k | 0 <= k < n && HasTs(c[k].entry)
  }

  /**
   * The catalog entries the `"all"` loop does not skip: exactly those with
   * a `ts` path, in key order, each at the position given by the number of
   * kept entries before it.
   */
  function WithTs(c: Catalog): (es: seq<Entry>)
    ensures |es| == |TsPositions(c, |c|)|
    ensures forall i :: 0 <= i < |c| && HasTs(c[i].entry) ==>
              |TsPositions(c, i)| < |es| && es[|TsPositions(c, i)|] == c[i].entry
    ensures forall i :: 0 <= i < |es| ==> HasTs(es[i])
  {
    if |c| == 0 then []
    else
      var n := |c| - 1;
      var prev := WithTs(c[..n]);
      var es := prev + (if HasTs(c[n].entry) then [c[n].entry] else []);
      KeptAppend(c, prev, es);
      es
  }

  /** The inductive step of `WithTs`: keeping or skipping the last entry. */
  lemma KeptAppend(c: Catalog, prev: seq<Entry>, es: seq<Entry>)
    requires |c| > 0
    requires var init := c[..|c| - 1];
             && |prev| == |TsPositions(init, |init|)|
             && (forall i :: 0 <= i < |init| && HasTs(init[i].entry) ==>
                   |TsPositions(init, i)| < |prev| && prev[|TsPositions(init, i)|] == init[i].entry)
             && (forall i :: 0 <= i < |prev| ==> HasTs(prev[i]))
    requires es == prev + (if HasTs(c[|c| - 1].entry) then [c[|c| - 1].entry] else [])
    ensures |es| == |TsPositions(c, |c|)|
    ensures forall i :: 0 <= i < |c| && HasTs(c[i].entry) ==>
              |TsPositions(c, i)| < |es| && es[|TsPositions(c, i)|] == c[i].entry
    ensures forall i :: 0 <= i < |es| ==> HasTs(es[i])
  {
    var n := |c| - 1;
    var init := c[..n];
    TsPositionsStep(c, n);
    TsPositionsPrefix(c, n, n);
    forall i | 0 <= i < |es| ensures HasTs(es[i]) {
      if i < |prev| { assert es[i] == prev[i]; }
    }
    forall i | 0 <= i < |c| && HasTs(c[i].entry)
      ensures |TsPositions(c, i)| < |es| && es[|TsPositions(c, i)|] == c[i].entry
    {
      if i < n {
        assert init[i] == c[i];
        TsPositionsPrefix(c, n, i);
        KeptEarlier(prev, es, |TsPositions(c, i)|, c[i].entry);
      }
    }
  }

  /** An entry kept before the last one stays where it was. */
  lemma KeptEarlier(prev: seq<Entry>, es: seq<Entry>, r: nat, e: Entry)
    requires r < |prev| && prev[r] == e && prev <= es
    ensures r < |es| && es[r] == e
  {
  }

  /** One more position adds that position exactly when its entry has a `ts` path. */
  lemma TsPositionsStep(c: Catalog, n: nat)
    requires n < |c|
    ensures TsPositions(c, n + 1) == TsPositions(c, n) + (if HasTs(c[n].entry) then {n} else {})
    ensures |TsPositions(c, n + 1)| == |TsPositions(c, n)| + (if HasTs(c[n].entry) then 1 else 0)
  {
    assert TsPositions(c, n + 1) == TsPositions(c, n) + (if HasTs(c[n].entry) then {n} else {});
    assert n !in TsPositions(c, n);
  }

  /** Positions below `i` do not depend on the entries from `m` on, for any `i <= m`. */
  lemma TsPositionsPrefix(c: Catalog, m: nat, i: nat)
    requires i <= m <= |c|
    ensures TsPositions(c[..m], i) == TsPositions(c, i)
  {
    assert forall k :: 0 <= k < i ==> c[..m][k] == c[k];
  }

  /** Derives the target of every entry in order, or None as soon as one cannot be derived. */
  function PlanTargets(es: seq<Entry>, language: string, root: Path, destination: AbsPath): (r: Option<seq<Target>>)
    ensures r.Some? <==> forall i :: 0 <= i < |es| ==> TargetFor(es[i], language, root, destination).Some?
    ensures r.Some? ==> |r.value| == |es|
    ensures r.Some? ==> forall i :: 0 <= i < |es| ==> TargetFor(es[i], language, root, destination) == Some(r.value[i])
  {
    if |es| == 0 then Some([])
    else
      var first := TargetFor(es[0], language, root, destination);
      var rest := PlanTargets(es[1..], language, root, destination);
      if first.None? then None
      else if rest.None? then
        assert exists j :: 0 <= j < |es| - 1 && TargetFor(es[1..][j], language, root, destination).None?;
        None
      else Some([first.value] + rest.value)
  }

  /**
   * The first loop of `"all"`: index-aligned source and destination lists,
   * one pair per entry with a `ts` path, whatever the language. Any pair that
   * cannot be derived throws before anything is copied.
   */
  function PlanAll(c: Catalog, language: string, root: Path, destination: AbsPath): Option<seq<Target>> {
    PlanTargets(WithTs(c), language, root, destination)
  }

  function Dests(targets: seq<Target>): set<Path> {
    set i | 0 <= i < |targets| :: targets[i].dest
  }

  /** What the copy loop of `"all"` leaves: the file system, the reports, and the copy error that ended it. */
  datatype Batch = Batch(fs: FS, out: seq<Line>, failure: Option<IoError>)

  /** The report for a destination that already exists; it names the source path. */
  function SkipReport(t: Target, folder: string): Line {
    Error(Red, "\"" + t.source + "\" already exists in \"" + folder + "\".")
  }

  /**
   * The second loop of `"all"`: an existing destination is reported and
   * skipped, anything else is copied exclusively; a copy error escapes and
   * ends the loop. Each target either adds a file or adds a report.
   */
  function CopyEach(fs: FS, targets: seq<Target>, folder: string): (b: Batch)
    ensures Preserves(fs, b.fs) && b.fs.dirs == fs.dirs
    ensures b.fs.files.Keys <= fs.files.Keys + Dests(targets)
    ensures b.failure.None? ==> forall i :: 0 <= i < |targets| ==> Exists(b.fs, targets[i].dest)
    ensures forall p :: p in b.fs.files && p !in fs.files ==> p !in fs.dirs
    ensures b.failure != Some(AlreadyExists)
    decreases |targets|
  {
    if |targets| == 0 then Batch(fs, [], None)
    else
      var t := targets[0];
      var rest := targets[1..];
      assert Dests(targets) == {t.dest} + Dests(rest);
      if Exists(fs, t.dest) then
        var b := CopyEach(fs, rest, folder);
        b.(out := [SkipReport(t, folder)] + b.out)
      else
        match CopyExclusive(fs, t.source, t.dest)
        case Err(e) => Batch(fs, [], Some(e))
        case Ok(fs1) => CopyEach(fs1, rest, folder)
  }

  /**
   * Skip-and-continue accounting: every target of a loop that ran to the end
   * either created one file or printed one report.
   */
  lemma {:induction false} CopyEachAccounts(fs: FS, targets: seq<Target>, folder: string)
    ensures var b := CopyEach(fs, targets, folder);
            && |fs.files.Keys| <= |b.fs.files.Keys|
            && (b.failure.None? ==> |b.out| + |b.fs.files.Keys| - |fs.files.Keys| == |targets|)
            && (b.failure.Some? ==> |b.out| + |b.fs.files.Keys| - |fs.files.Keys| < |targets|)
    decreases |targets|
  {
    if |targets| > 0 {
      var t := targets[0];
      if Exists(fs, t.dest) {
        CopyEachAccounts(fs, targets[1..], folder);
      } else {
        match CopyExclusive(fs, t.source, t.dest)
        case Err(_) =>
        case Ok(fs1) =>
          assert fs1.files.Keys == fs.files.Keys + {t.dest};
          assert |fs1.files.Keys| == |fs.files.Keys| + 1;
          CopyEachAccounts(fs1, targets[1..], folder);
      }
    }
  }

  /** The reports `"all"` prints when every destination is already taken: one per target, in order. */
  function SkipReports(targets: seq<Target>, folder: string): seq<Line> {
    seq(|targets|, i requires 0 <= i < |targets| => SkipReport(targets[i], folder))
  }

  /**
   * Skip and continue: when every destination already exists the loop runs
   * to the end, copies nothing, and reports each target once, in order.
   */
  lemma {:induction false} CopyEachAllSkipped(fs: FS, targets: seq<Target>, folder: string)
    requires forall i :: 0 <= i < |targets| ==> Exists(fs, targets[i].dest)
    ensures CopyEach(fs, targets, folder) == Batch(fs, SkipReports(targets, folder), None)
    decreases |targets|
  {
    if |targets| > 0 {
      var rest := targets[1..];
      forall i | 0 <= i < |rest|
        ensures Exists(fs, rest[i].dest)
      {
        assert rest[i] == targets[i + 1];
      }
      CopyEachAllSkipped(fs, rest, folder);
      var tail := SkipReports(rest, folder);
      assert CopyEach(fs, targets, folder) == Batch(fs, [SkipReport(targets[0], folder)] + tail, None);
      forall k | 1 <= k < |targets|
        ensures SkipReports(targets, folder)[k] == tail[k - 1]
      {
        assert rest[k - 1] == targets[k];
      }
      assert SkipReports(targets, folder) == [SkipReport(targets[0], folder)] + tail;
    }
  }

  /** The `"all"` branch after the folder and catalog checks. */
  function InstallAll(env: Env, fs: FS, c: Catalog, cfg: Config): (r: Run)
    requires Exists(fs, Destination(env, cfg))
    ensures Preserves(fs, r.fs) && r.fs.dirs == fs.dirs
    ensures forall p :: p in r.fs.files && p !in fs.files ==> Dirname(p) == Destination(env, cfg)
    ensures r.status.Returned? || r.status.Threw?
    ensures r.status == Threw(TypeError) ==> r.fs == fs
    ensures var p := PlanAll(c, cfg.language, env.packageRoot, Destination(env, cfg));
            p.Some? ==> var b := CopyEach(fs, p.value, cfg.folder);
                        && (r.status.Returned? <==> b.failure.None?)
                        && r.fs == b.fs
                        && (r.status.Returned? ==>
                              r.out == [Log(Yellow, "Installing all hooks...")] + b.out
                                       + [Log(Green, "All hooks installed in " + cfg.folder + ".\n")])
  {
    var destination := Destination(env, cfg);
    match PlanAll(c, cfg.language, env.packageRoot, destination)
    case None => Run(fs, Threw(TypeError), [])
    case Some(targets) =>
      // The folder was checked to exist, so the guarded mkdir changes nothing.
      var fs1 := EnsureDir(fs, destination).value;
      var b := CopyEach(fs1, targets, cfg.folder);
      PlannedFilesInside(c, cfg.language, env.packageRoot, destination, targets, fs, b);
      var out := [Log(Yellow, "Installing all hooks...")] + b.out;
      if b.failure.Some? then Run(b.fs, Threw(Io(b.failure.value)), out)
      else Run(b.fs, Returned, out + [Log(Green, "All hooks installed in " + cfg.folder + ".\n")])
  }

  /**
   * When every planned destination is taken, `"all"` still returns normally:
   * nothing changes, each target is reported, and the success line follows.
   */
  lemma InstallAllSkipsExisting(env: Env, fs: FS, c: Catalog, cfg: Config, targets: seq<Target>)
    requires Exists(fs, Destination(env, cfg))
    requires PlanAll(c, cfg.language, env.packageRoot, Destination(env, cfg)) == Some(targets)
    requires forall i :: 0 <= i < |targets| ==> Exists(fs, targets[i].dest)
    ensures var r := InstallAll(env, fs, c, cfg);
            && r.status == Returned
            && r.fs == fs
            && r.out == [Log(Yellow, "Installing all hooks...")] + SkipReports(targets, cfg.folder)
                        + [Log(Green, "All hooks installed in " + cfg.folder + ".\n")]
  {
    CopyEachAllSkipped(fs, targets, cfg.folder);
  }

  /** Every file the `"all"` loop creates lies directly inside the hooks folder. */
  lemma PlannedFilesInside(c: Catalog, language: string, root: Path, destination: AbsPath,
                           targets: seq<Target>, fs: FS, b: Batch)
    requires PlanAll(c, language, root, destination) == Some(targets)
    requires Exists(fs, destination)
    requires b.fs.files.Keys <= fs.files.Keys + Dests(targets)
    requires forall p :: p in b.fs.files && p !in fs.files ==> p !in fs.dirs
    ensures forall p :: p in b.fs.files && p !in fs.files ==> Dirname(p) == destination
  {
    forall p | p in b.fs.files && p !in fs.files
      ensures Dirname(p) == destination
    {
      var i :| 0 <= i < |targets| && targets[i].dest == p;
      assert TargetFor(WithTs(c)[i], language, root, destination) == Some(targets[i]);
    }
  }

  /** The single-hook branch: case-insensitive lookup, then one exclusive copy. */
  function InstallOne(env: Env, fs: FS, c: Catalog, cfg: Config, hookName: string): (r: Run)
    requires Exists(fs, Destination(env, cfg))
    ensures Preserves(fs, r.fs) && r.fs.dirs == fs.dirs
    ensures forall p :: p in r.fs.files && p !in fs.files ==> Dirname(p) == Destination(env, cfg)
    ensures |r.fs.files.Keys - fs.files.Keys| <= 1
    ensures !r.status.Returned? ==> r.fs == fs
    ensures r.status.Exited? ==> r.status.code == 1
  {
    var destination := Destination(env, cfg);
    var found := Lookup(c, ToLower(hookName));
    if found.None? || !HasTs(found.value) then
      Run(fs, Exited(1), [Error(Red, "Hook \"" + hookName + "\" not found.\n")])
    else
      match TargetFor(found.value, cfg.language, env.packageRoot, destination)
      case None => Run(fs, Threw(TypeError), [])
      case Some(t) =>
        if Exists(fs, t.dest) then
          Run(fs, Exited(1), [Error(Red, "\"" + hookName + "\" already exists in \"" + cfg.folder + "\".\n")])
        else
          CopyOne(fs, t, destination, hookName)
  }

  /**
   * The end of a single install: create the destination's parent when it is
   * missing (it never is, being the checked hooks folder), then copy.
   */
  function CopyOne(fs: FS, t: Target, destination: AbsPath, hookName: string): (r: Run)
    requires Exists(fs, destination) && Dirname(t.dest) == destination && !Exists(fs, t.dest)
    ensures Preserves(fs, r.fs) && r.fs.dirs == fs.dirs
    ensures r.status.Returned? ==> r.fs.files.Keys - fs.files.Keys == {t.dest}
    ensures !r.status.Returned? ==> r.status.Threw? && r.fs == fs
  {
    var fs1 := EnsureDir(fs, Dirname(t.dest)).value;
    var out := [Log(Yellow, "Installing \"" + hookName + "\"...")];
    match CopyExclusive(fs1, t.source, t.dest)
    case Err(e) => Run(fs1, Threw(Io(e)), out)
    case Ok(fs2) =>
      assert fs2.files.Keys - fs.files.Keys == {t.dest};
      Run(fs2, Returned, out + [Log(Green, hookName + " installed in " + destination + ".\n")])
  }

  /**
   * `installHook(hookName)`. Whatever happens, no existing file changes and
   * no directory is created; every error reported through `process.exit`
   * leaves the file system exactly as it was.
   */
  function InstallHook(env: Env, fs: FS, catalog: CatalogRead, hookName: string): (r: Run)
    ensures Preserves(fs, r.fs) && r.fs.dirs == fs.dirs
    ensures LoadConfig(fs, env.configPath).NotInitialized? ==> r.status == Exited(1) && r.fs == fs
    ensures r.status.Exited? ==> r.status.code == 1 && r.fs == fs
    ensures hookName != AllHooks && !r.status.Returned? ==> r.fs == fs
    ensures r.fs != fs ==> LoadConfig(fs, env.configPath).Initialized? && catalog.Loaded?
    ensures forall p :: p in r.fs.files && p !in fs.files ==>
              LoadConfig(fs, env.configPath).Initialized? &&
              Dirname(p) == Destination(env, LoadConfig(fs, env.configPath).config)
  {
    match LoadConfig(fs, env.configPath)
    case NotInitialized => Run(fs, Exited(1), [Error(Red, "QOL Hooks is not initialized.\n")])
    case Malformed => Run(fs, Threw(TypeError), [])
    case Initialized(cfg) =>
      var destination := Destination(env, cfg);
      if !Exists(fs, destination) then
        Run(fs, Exited(1), [Error(Red, "Destination folder " + destination + " does not exist.\n")])
      else
        match catalog
        case Unreadable => Run(fs, Threw(ParseError), [])
        case Falsy => Run(fs, Exited(1), [Error(Red, "hooks.json not found. - Clean your npm cache and try again.\n")])
        case Loaded(c) =>
          if hookName == AllHooks then InstallAll(env, fs, c, cfg)
          else InstallOne(env, fs, c, cfg, hookName)
  }

  /**
   * The destination rule: for a variant path `dir/file`, the source is that
   * path inside the package and the destination is the folder joined with
   * `file` alone.
   */
  lemma TargetOfTwoPieces(e: Entry, language: string, root: Path, destination: AbsPath, dir: string, file: string)
    requires VariantPath(e, language) == Some(dir + "/" + file)
    requires '/' !in dir && '/' !in file && dir != "" && file != ""
    ensures TargetFor(e, language, root, destination)
            == Some(Target(root + "/" + (dir + "/" + file), destination + "/" + file))
  {
    SecondSegmentOfPair(dir, file);
    var p := dir + "/" + file;
    assert p[0] == dir[0];
    assert file[0] != '/';
  }

  /**
   * The destination is the hooks folder joined with exactly the second
   * `/`-piece of the variant path, the piece `SecondSegment` describes.
   */
  lemma TargetKeepsSecondPiece(e: Entry, language: string, root: Path, destination: AbsPath)
    requires TargetFor(e, language, root, destination).Some?
    ensures var seg := SecondSegment(VariantPath(e, language).value).value;
            TargetFor(e, language, root, destination).value.dest
              == (if seg == "" then destination else destination + "/" + seg)
  {
  }

  /**
   * Only the second piece counts: a variant path `dir/sub/file` copies the
   * whole path from the package but lands at `<folder>/sub`.
   */
  lemma TargetOfNestedPath(e: Entry, language: string, root: Path, destination: AbsPath,
                           dir: string, sub: string, rest: string)
    requires VariantPath(e, language) == Some(dir + "/" + sub + "/" + rest)
    requires '/' !in dir && '/' !in sub && dir != "" && sub != ""
    ensures TargetFor(e, language, root, destination)
            == Some(Target(root + "/" + (dir + "/" + sub + "/" + rest), destination + "/" + sub))
  {
    SecondSegmentOfTriple(dir, sub, rest);
    var p := dir + "/" + sub + "/" + rest;
    assert p[0] == dir[0];
    assert sub[0] != '/';
  }

  /** A missing hooks folder is reported before the catalog is consulted, whatever the catalog holds. */
  lemma FolderCheckedFirst(env: Env, fs: FS, catalog: CatalogRead, hookName: string)
    requires LoadConfig(fs, env.configPath).Initialized?
    requires !Exists(fs, Destination(env, LoadConfig(fs, env.configPath).config))
    ensures InstallHook(env, fs, catalog, hookName).status == Exited(1)
    ensures InstallHook(env, fs, catalog, hookName) == InstallHook(env, fs, Unreadable, hookName)
  {
  }

  /** The preconditions under which a single install reaches the copy. */
  predicate ReadyToInstall(env: Env, fs: FS, c: Catalog, hookName: string) {
    && LoadConfig(fs, env.configPath).Initialized?
    && Exists(fs, Destination(env, LoadConfig(fs, env.configPath).config))
    && hookName != AllHooks
  }

  /** The target a single install of `hookName` derives, when its entry has a `ts` path. */
  function SingleTarget(env: Env, fs: FS, c: Catalog, hookName: string): Option<Target>
    requires ReadyToInstall(env, fs, c, hookName)
  {
    var cfg := LoadConfig(fs, env.configPath).config;
    var found := Lookup(c, ToLower(hookName));
    if found.None? || !HasTs(found.value) then None
    else TargetFor(found.value, cfg.language, env.packageRoot, Destination(env, cfg))
  }

  /**
   * A name whose lower-cased key is absent, or whose entry has no `ts` path,
   * exits with 1 and copies nothing, even in a JavaScript project whose
   * entry has a `js` path.
   */
  lemma UnknownHookRefused(env: Env, fs: FS, c: KeyedCatalog, hookName: string)
    requires ReadyToInstall(env, fs, c, hookName)
    requires Lookup(c, ToLower(hookName)).None? || !HasTs(Lookup(c, ToLower(hookName)).value)
    ensures InstallHook(env, fs, Loaded(c), hookName).status == Exited(1)
    ensures InstallHook(env, fs, Loaded(c), hookName).fs == fs
  {
  }

  /**
   * Lookup is case-insensitive: two spellings with the same lower-case form
   * (neither of them exactly "all") change the file system identically and
   * end identically.
   */
  lemma InstallIgnoresCase(env: Env, fs: FS, catalog: CatalogRead, a: string, b: string)
    requires a != AllHooks && b != AllHooks
    requires ToLower(a) == ToLower(b)
    ensures InstallHook(env, fs, catalog, a).fs == InstallHook(env, fs, catalog, b).fs
    ensures InstallHook(env, fs, catalog, a).status == InstallHook(env, fs, catalog, b).status
  {
    match LoadConfig(fs, env.configPath)
    case NotInitialized =>
    case Malformed =>
    case Initialized(cfg) =>
      if Exists(fs, Destination(env, cfg)) && catalog.Loaded? {
        var c := catalog.catalog;
        assert InstallHook(env, fs, catalog, a) == InstallOne(env, fs, c, cfg, a);
        assert InstallHook(env, fs, catalog, b) == InstallOne(env, fs, c, cfg, b);
        SingleEffectIgnoresName(env, fs, c, cfg, a, b);
      }
  }

  lemma SingleEffectIgnoresName(env: Env, fs: FS, c: Catalog, cfg: Config, a: string, b: string)
    requires Exists(fs, Destination(env, cfg))
    requires ToLower(a) == ToLower(b)
    ensures InstallOne(env, fs, c, cfg, a).fs == InstallOne(env, fs, c, cfg, b).fs
    ensures InstallOne(env, fs, c, cfg, a).status == InstallOne(env, fs, c, cfg, b).status
  {
    var destination := Destination(env, cfg);
    var found := Lookup(c, ToLower(a));
    if found.None? || !HasTs(found.value) {
    } else {
      match TargetFor(found.value, cfg.language, env.packageRoot, destination)
      case None =>
      case Some(t) =>
        if !Exists(fs, t.dest) {
          var fs1 := EnsureDir(fs, Dirname(t.dest)).value;
          match CopyExclusive(fs1, t.source, t.dest)
          case Err(e) =>
            assert InstallOne(env, fs, c, cfg, a).fs == fs1;
            assert InstallOne(env, fs, c, cfg, b).fs == fs1;
          case Ok(fs2) =>
            assert InstallOne(env, fs, c, cfg, a).fs == fs2;
            assert InstallOne(env, fs, c, cfg, b).fs == fs2;
        }
    }
  }

  /**
   * Into an empty slot, a single install copies the source bytes to the
   * derived destination and touches nothing else.
   */
  lemma SingleInstallCopies(env: Env, fs: FS, c: KeyedCatalog, hookName: string)
    requires ReadyToInstall(env, fs, c, hookName)
    requires Destination(env, LoadConfig(fs, env.configPath).config) in fs.dirs
    requires SingleTarget(env, fs, c, hookName).Some?
    requires var t := SingleTarget(env, fs, c, hookName).value;
             !Exists(fs, t.dest) && t.source in fs.files
    ensures var t := SingleTarget(env, fs, c, hookName).value;
            var r := InstallHook(env, fs, Loaded(c), hookName);
            && r.status == Returned
            && r.fs.files == fs.files[t.dest := fs.files[t.source]]
            && r.fs.dirs == fs.dirs
  {
    var cfg := LoadConfig(fs, env.configPath).config;
    var t := SingleTarget(env, fs, c, hookName).value;
    ResolveSegment(Destination(env, cfg), SecondSegment(VariantPath(Lookup(c, ToLower(hookName)).value, cfg.language).value).value);
  }

  /**
   * Installing the same hook twice: the second run finds the file from the
   * first, exits with 1, and leaves it as the first run wrote it.
   */
  lemma SecondInstallRefused(env: Env, fs: FS, catalog: CatalogRead, hookName: string)
    requires hookName != AllHooks
    requires InstallHook(env, fs, catalog, hookName).status == Returned
    ensures var r1 := InstallHook(env, fs, catalog, hookName);
            var r2 := InstallHook(env, r1.fs, catalog, hookName);
            && r2.status == Exited(1)
            && r2.fs == r1.fs
  {
    var r1 := InstallHook(env, fs, catalog, hookName);
    var cfg := LoadConfig(fs, env.configPath).config;
    assert LoadConfig(r1.fs, env.configPath) == LoadConfig(fs, env.configPath);
    var c := catalog.catalog;
    assert ReadyToInstall(env, fs, c, hookName);
    assert ReadyToInstall(env, r1.fs, c, hookName);
    var t := SingleTarget(env, fs, c, hookName).value;
    assert SingleTarget(env, r1.fs, c, hookName) == Some(t);
    assert Exists(r1.fs, t.dest);
  }

  /** Targets whose destinations are free and distinct and whose sources and parent directories exist. */
  predicate FreshTargets(fs: FS, targets: seq<Target>) {
    && (forall i :: 0 <= i < |targets| ==>
          !Exists(fs, targets[i].dest) && targets[i].source in fs.files && Dirname(targets[i].dest) in fs.dirs)
    && (forall i, j :: 0 <= i < j < |targets| ==> targets[i].dest != targets[j].dest)
  }

  /** On free destinations the copy loop copies every target and reports nothing. */
  lemma {:induction false} CopyEachFresh(fs: FS, targets: seq<Target>, folder: string)
    requires FreshTargets(fs, targets)
    ensures var b := CopyEach(fs, targets, folder);
            && b.failure.None? && b.out == []
            && |b.fs.files.Keys| == |fs.files.Keys| + |targets|
            && forall i :: 0 <= i < |targets| ==> b.fs.files[targets[i].dest] == fs.files[targets[i].source]
    decreases |targets|
  {
    if |targets| > 0 {
      var t := targets[0];
      var rest := targets[1..];
      var fs1 := fs.(files := fs.files[t.dest := fs.files[t.source]]);
      assert CopyExclusive(fs, t.source, t.dest) == Ok(fs1);
      assert FreshTargets(fs1, rest) by {
        forall i | 0 <= i < |rest|
          ensures !Exists(fs1, rest[i].dest)
        {
          assert rest[i].dest == targets[i + 1].dest;
        }
      }
      CopyEachFresh(fs1, rest, folder);
      assert |fs1.files.Keys| == |fs.files.Keys| + 1 by {
        assert fs1.files.Keys == fs.files.Keys + {t.dest};
      }
      var b := CopyEach(fs1, rest, folder);
      forall i | 0 <= i < |targets|
        ensures b.fs.files[targets[i].dest] == fs.files[targets[i].source]
      {
        if i > 0 {
          assert targets[i] == rest[i - 1];
          assert targets[i].source != t.dest;
        }
      }
    }
  }

  /**
   * `install all` into a folder where no destination exists yet creates one
   * file per catalog entry with a `ts` path, each holding its source's bytes,
   * and ends normally.
   */
  lemma InstallAllCreatesOnePerEntry(env: Env, fs: FS, c: KeyedCatalog)
    requires LoadConfig(fs, env.configPath).Initialized?
    requires var cfg := LoadConfig(fs, env.configPath).config;
             && Destination(env, cfg) in fs.dirs
             && PlanAll(c, cfg.language, env.packageRoot, Destination(env, cfg)).Some?
             && FreshTargets(fs, PlanAll(c, cfg.language, env.packageRoot, Destination(env, cfg)).value)
    ensures var r := InstallHook(env, fs, Loaded(c), AllHooks);
            && r.status == Returned
            && |r.fs.files.Keys| == |fs.files.Keys| + |TsPositions(c, |c|)|
  {
    var cfg := LoadConfig(fs, env.configPath).config;
    var targets := PlanAll(c, cfg.language, env.packageRoot, Destination(env, cfg)).value;
    CopyEachFresh(fs, targets, cfg.folder);
  }
}

=== FILE: legacy.dfy ===
/**
 * The legacy command-line front end: `install`, `uninstall` and `init`
 * over a `{ hooksFolder }` configuration in the working directory, with an
 * exact-key catalog whose values are file paths.
 */
module LegacyCli {
  import opened Wrappers
  import opened FileSystem
  import opened Console
  import InitCommand

  /** The configuration file's name, resolved against the working directory. */
  const ConfigFileName: string := "qol-hooks.config.json"

  function ConfigPath(cwd: AbsPath): Path {
    Resolve(cwd, ConfigFileName)
  }

  /**
   * One catalog value: a path string, or any other truthy JSON value (such
   * as the `{ name, ts, js }` records the current generator writes), which
   * `path.resolve` rejects with a `TypeError`.
   */
  datatype Value = PathValue(path: string) | OtherValue

  /** The imported catalog: anything but a non-null object stops the program at load time. */
  datatype LegacyCatalog = NotAnObject | Hooks(values: map<string, Value>)

  /** `hooks[name]` is truthy: present, and not the empty string. */
  predicate Truthy(hooks: map<string, Value>, name: string) {
    name in hooks && hooks[name] != PathValue("")
  }

  /**
   * `JSON.parse(readFileSync(config)).hooksFolder` handed to `path.resolve`:
   * a missing file or a directory fails the read, text fails the parse, and
   * any document without a string `hooksFolder` fails `path.resolve`.
   */
  function LoadHooksFolder(fs: FS, cwd: AbsPath): (r: Result<string, Thrown>)
    ensures r.Ok? <==> ConfigPath(cwd) in fs.files && fs.files[ConfigPath(cwd)].LegacyConfigJson?
    ensures r.Ok? ==> r.value == fs.files[ConfigPath(cwd)].hooksFolder
    ensures ConfigPath(cwd) !in fs.files ==> r.Err? && r.error.Io?
  {
    var p := ConfigPath(cwd);
    if p !in fs.files then Err(Io(if p in fs.dirs then IsADirectory else NoSuchFile))
    else
      match fs.files[p]
      case Text(_) => Err(ParseError)
      case LegacyConfigJson(folder) => Ok(folder)
      case _ => Err(TypeError)
  }

  /** The folder the configuration names, resolved against the working directory. */
  function FolderPath(cwd: AbsPath, hooksFolder: string): (d: AbsPath) {
    Resolve(cwd, hooksFolder)
  }

  /** Where `install` copies a catalog path: `path.join(destPath, hookPath)`, appending it verbatim. */
  function InstallPath(destPath: Path, hookPath: string): (p: Path)
    ensures |destPath| > 0 && hookPath != "" && '/' !in hookPath ==> Dirname(p) == destPath
    ensures hookPath != "" ==> |p| == |destPath| + 1 + |hookPath| && p[|destPath| + 1..] == hookPath
  {
    var p := Join(destPath, hookPath);
    assert |destPath| > 0 && hookPath != "" && '/' !in hookPath ==> Dirname(p) == destPath by {
      if |destPath| > 0 && hookPath != "" && '/' !in hookPath { DirnameOfJoin(destPath, hookPath); }
    }
    p
  }

  /** Where `install` copies from: `path.resolve(__dirname, "src", hookPath)`, with `__dirname` the working directory. */
  function SourcePath(cwd: AbsPath, hookPath: string): Path {
    Resolve(Resolve(cwd, "src"), hookPath)
  }

  /**
   * Where `uninstall` looks: `path.resolve(process.cwd, folder, hookPath)`.
   * Resolution runs from the right and stops at the first absolute piece,
   * and the folder is absolute, so the function-valued first argument is
   * never reached.
   */
  function UninstallPath(folder: AbsPath, hookPath: string): (p: Path)
    ensures (hookPath == "" || hookPath[0] != '/') ==> p == InstallPath(folder, hookPath)
    ensures |hookPath| > 0 && hookPath[0] == '/' ==> p == hookPath
  {
    Resolve(folder, hookPath)
  }

  /** `installHook(hookName)`. */
  function Install(cwd: AbsPath, fs: FS, hooks: map<string, Value>, hookName: string): (r: Run)
    ensures Preserves(fs, r.fs) && r.fs.dirs == fs.dirs
    ensures r.fs.files.Keys <= fs.files.Keys + {InstallPathOf(cwd, fs, hooks, hookName)}
    ensures !r.status.Returned? ==> r.fs == fs
    ensures r.status.Exited? ==> r.status.code == 1
    ensures !Truthy(hooks, hookName) ==> r.fs == fs && !r.status.Returned?
    ensures r.status.Returned? ==>
              && r.fs.files.Keys == fs.files.Keys + {InstallPathOf(cwd, fs, hooks, hookName)}
              && InstallPathOf(cwd, fs, hooks, hookName) !in fs.files
    ensures r.status.Returned? ==>
              && hookName in hooks && hooks[hookName].PathValue?
              && SourcePath(cwd, hooks[hookName].path) in fs.files
              && r.fs.files[InstallPathOf(cwd, fs, hooks, hookName)] == fs.files[SourcePath(cwd, hooks[hookName].path)]
    ensures var h := LoadHooksFolder(fs, cwd);
            h.Ok? && !Exists(fs, FolderPath(cwd, h.value)) ==> r.status == Exited(1) && r.fs == fs
    // The folder-creation branch is dead: it would create the folder just required to exist.
    ensures r.status.Returned? ==> |r.out| == 1
  {
    match LoadHooksFolder(fs, cwd)
    case Err(e) => Run(fs, Threw(e), [])
    case Ok(hooksFolder) =>
      var destination := FolderPath(cwd, hooksFolder);
      if !Exists(fs, destination) then
        Run(fs, Exited(1), [Error(Plain, "Hooks folder not found in " + destination)])
      else if !Truthy(hooks, hookName) then
        Run(fs, Exited(1), [Error(Plain, "Hook \"" + hookName + "\" not found.")])
      else
        match hooks[hookName]
        case OtherValue => Run(fs, Threw(TypeError), [])
        case PathValue(hookPath) =>
          var sourcePath := SourcePath(cwd, hookPath);
          var destPath := Resolve(cwd, destination);
          var target := InstallPath(destPath, hookPath);
          if Exists(fs, target) then
            Run(fs, Exited(1), [Error(Plain, "Hook " + hookName + " already exists in " + destination)])
          else
            // `destPath` is the folder checked above, so the guarded mkdir changes nothing.
            var created := if Exists(fs, destPath) then [] else [Log(Plain, "Creating " + destPath)];
            var fs1 := EnsureDir(fs, destPath).value;
            match CopyExclusive(fs1, sourcePath, target)
            case Err(e) => Run(fs1, Threw(Io(e)), created)
            case Ok(fs2) =>
              Run(fs2, Returned, created + [Log(Plain, "Installed " + hookName + " in " + destination)])
  }

  /** The file `install` would create for `hookName`, when it gets that far. */
  function InstallPathOf(cwd: AbsPath, fs: FS, hooks: map<string, Value>, hookName: string): Path {
    match LoadHooksFolder(fs, cwd)
    case Ok(hooksFolder) =>
      if hookName in hooks && hooks[hookName].PathValue? then
        InstallPath(Resolve(cwd, FolderPath(cwd, hooksFolder)), hooks[hookName].path)
      else ""
    case Err(_) => ""
  }

  /** The file `uninstall` would delete for `hookName`, when it gets that far. */
  function UninstallPathOf(cwd: AbsPath, fs: FS, hooks: map<string, Value>, hookName: string): Path {
    match LoadHooksFolder(fs, cwd)
    case Ok(hooksFolder) =>
      if hookName in hooks && hooks[hookName].PathValue? then
        UninstallPath(FolderPath(cwd, hooksFolder), hooks[hookName].path)
      else ""
    case Err(_) => ""
  }

  /** `uninstallHook(hookName)`. */
  function Uninstall(cwd: AbsPath, fs: FS, hooks: map<string, Value>, hookName: string): (r: Run)
    ensures r.fs.dirs == fs.dirs
    ensures !r.status.Returned? ==> r.fs == fs
    ensures r.status.Exited? ==> r.status.code == 1
    ensures !Truthy(hooks, hookName) ==> r.fs == fs && !r.status.Returned?
    ensures r.status.Returned? ==>
              && LoadHooksFolder(fs, cwd).Ok? && hookName in hooks && hooks[hookName].PathValue?
              && UninstallPathOf(cwd, fs, hooks, hookName) in fs.files
              && r.fs.files == fs.files - {UninstallPathOf(cwd, fs, hooks, hookName)}
    ensures var h := LoadHooksFolder(fs, cwd);
            h.Ok? && !Exists(fs, FolderPath(cwd, h.value)) ==> r.status == Exited(1) && r.fs == fs
  {
    match LoadHooksFolder(fs, cwd)
    case Err(e) => Run(fs, Threw(e), [])
    case Ok(hooksFolder) =>
      var folder := FolderPath(cwd, hooksFolder);
      if !Exists(fs, folder) then
        Run(fs, Exited(1), [Error(Plain, "Hooks folder not found in " + folder)])
      else if !Truthy(hooks, hookName) then
        Run(fs, Exited(1), [Error(Plain, "Hook \"" + hookName + "\" not found.")])
      else
        match hooks[hookName]
        case OtherValue => Run(fs, Threw(TypeError), [])
        case PathValue(hookPath) =>
          var hookFilePath := UninstallPath(folder, hookPath);
          if !Exists(fs, hookFilePath) then
            Run(fs, Exited(1), [Error(Plain, "Hook \"" + hookName + "\" not found in " + folder)])
          else
            match Unlink(fs, hookFilePath)
            case Err(e) => Run(fs, Threw(Io(e)), [])
            case Ok(fs1) => Run(fs1, Returned, [Log(Plain, "Uninstalled " + hookName)])
  }

  /**
   * `init()`: refuses an existing configuration; otherwise creates the
   * folder and writes `{ hooksFolder }`. The mkdir throws when the folder
   * sits under a regular file, and the write throws when the mkdir made the
   * configuration path a directory.
   */
  function Init(cwd: AbsPath, fs: FS, answer: string): (r: Run)
    ensures Exists(fs, ConfigPath(cwd)) ==> r.status == Exited(1) && r.fs == fs
    ensures Preserves(fs, r.fs)
    ensures r.status.Returned? ==>
              LoadHooksFolder(r.fs, cwd) == Ok(InitCommand.AnsweredFolder(answer))
              && Exists(r.fs, FolderPath(cwd, InitCommand.AnsweredFolder(answer)))
    ensures var d := FolderPath(cwd, InitCommand.AnsweredFolder(answer));
            !Exists(fs, ConfigPath(cwd)) && !Exists(fs, d) && UnderFile(fs, d) ==>
              r.status == Threw(Io(NotADirectory)) && r.fs == fs
    ensures var d := FolderPath(cwd, InitCommand.AnsweredFolder(answer));
            !Exists(fs, ConfigPath(cwd)) && !Exists(fs, d) && ConfigPath(cwd) in Ancestors(d) + {d} ==>
              r.status.Threw? && r.fs.files == fs.files
  {
    var configPath := ConfigPath(cwd);
    if Exists(fs, configPath) then
      Run(fs, Exited(1), [Error(Plain, "QOL Hooks is already initialized.")])
    else
      var hooksFolder := InitCommand.AnsweredFolder(answer);
      var folder := FolderPath(cwd, hooksFolder);
      var created := if Exists(fs, folder) then [] else [Log(Plain, "Creating " + folder)];
      match EnsureDir(fs, folder)
      case Err(e) => Run(fs, Threw(Io(e)), created)
      case Ok(fs1) =>
        match WriteFile(fs1, configPath, LegacyConfigJson(hooksFolder))
        case Err(e) => Run(fs1, Threw(Io(e)), created)
        case Ok(fs2) =>
          Run(fs2, Returned, created + [Log(Plain, "Hooks folder set to " + folder),
                                        Log(Plain, "QOL Hooks initialized!")])
  }

  /**
   * `main()`: the catalog check at load time comes first, then the command
   * picked by the first argument; a missing name is a usage error.
   */
  function Main(cwd: AbsPath, fs: FS, catalog: LegacyCatalog, args: seq<string>, answer: string): (r: Run)
    ensures catalog.NotAnObject? ==> r == Run(fs, Exited(1), [Error(Plain, "hooks.json not found or invalid.")])
    ensures |args| == 0 || !(args[0] in {"init", "install", "uninstall"}) ==> r.status == Exited(1) && r.fs == fs
    ensures |args| >= 1 && (args[0] == "install" || args[0] == "uninstall") && (|args| == 1 || args[1] == "") ==>
              r.status == Exited(1) && r.fs == fs
    ensures ExitCode(r.status) == 0 ==> catalog.Hooks? && |args| > 0 && args[0] in {"init", "install", "uninstall"}
    ensures catalog.Hooks? && |args| > 0 && args[0] == "init" ==> r == Init(cwd, fs, answer)
    ensures catalog.Hooks? && |args| > 1 && args[0] == "install" && args[1] != "" ==>
              r == Install(cwd, fs, catalog.values, args[1])
    ensures catalog.Hooks? && |args| > 1 && args[0] == "uninstall" && args[1] != "" ==>
              r == Uninstall(cwd, fs, catalog.values, args[1])
  {
    match catalog
    case NotAnObject => Run(fs, Exited(1), [Error(Plain, "hooks.json not found or invalid.")])
    case Hooks(hooks) =>
      if |args| == 0 then Run(fs, Exited(1), [Error(Plain, "Usage: npx qol-hooks <init|install|uninstall>")])
      else
        match args[0]
        case "init" => Init(cwd, fs, answer)
        case "install" =>
          if |args| == 1 || args[1] == "" then
            Run(fs, Exited(1), [Error(Plain, "Usage: npx qol-hooks install <hookName>")])
          else Install(cwd, fs, hooks, args[1])
        case "uninstall" =>
          if |args| == 1 || args[1] == "" then
            Run(fs, Exited(1), [Error(Plain, "Usage: npx qol-hooks uninstall <hookName>")])
          else Uninstall(cwd, fs, hooks, args[1])
        case _ => Run(fs, Exited(1), [Error(Plain, "Usage: npx qol-hooks <init|install|uninstall>")])
  }

  /**
   * For a relative catalog path, a successful `install` followed by
   * `uninstall` of the same name removes exactly the installed file and
   * gives back the original file system.
   */
  lemma InstallThenUninstall(cwd: AbsPath, fs: FS, hooks: map<string, Value>, hookName: string)
    requires hookName in hooks && hooks[hookName].PathValue?
    requires var p := hooks[hookName].path; p != "" && p[0] != '/'
    requires Install(cwd, fs, hooks, hookName).status == Returned
    ensures var r1 := Install(cwd, fs, hooks, hookName);
            var r2 := Uninstall(cwd, r1.fs, hooks, hookName);
            r2.status == Returned && r2.fs == fs
  {
  }
}

=== FILE: list.dfy ===
/**
 * The `list` command: one console line per catalog entry. It reads the
 * catalog shipped with the package and nothing from the project, so it
 * takes no configuration and works before `init`.
 */
module ListCommand {
  import opened FileSystem
  import opened Console
  import opened Catalog
  import opened Install

  const Header: Line := Log(Cyan, "\nAvailable hooks:")
  const Footer: Line := Log(Plain, "\n")

  /** The line printed for one catalog value: its display name, never its key. */
  function EntryLine(e: Entry): Line {
    Log(Plain, "  - " + e.name)
  }

  /** The lines of the `for (const hook in hooks)` loop, in key order. */
  function EntryLines(c: Catalog): (lines: seq<Line>)
    ensures |lines| == |c|
    ensures forall i :: 0 <= i < |c| ==> lines[i].text == "  - " + c[i].entry.name
    ensures forall i :: 0 <= i < |c| ==> lines[i].stream == Stdout && lines[i].tag == Plain
  {
    if |c| == 0 then [] else [EntryLine(c[0].entry)] + EntryLines(c[1..])
  }

  /**
   * `list()`: a catalog that cannot be read or parsed rejects the promise;
   * a falsy catalog lists nothing; otherwise header, entries, blank line.
   */
  function List(fs: FS, catalog: CatalogRead): (r: Run)
    ensures r.fs == fs
    ensures r.status.Threw? <==> catalog.Unreadable?
    ensures !r.status.Threw? ==> r.status == Returned && |r.out| >= 2
                                 && r.out[0] == Header && r.out[|r.out| - 1] == Footer
    ensures catalog.Falsy? ==> |r.out| == 2
    ensures catalog.Loaded? ==>
              |r.out| == |catalog.catalog| + 2 &&
              forall i :: 0 <= i < |catalog.catalog| ==>
                r.out[i + 1].text == "  - " + catalog.catalog[i].entry.name
  {
    match catalog
    case Unreadable => Run(fs, Threw(ParseError), [])
    case Falsy => Run(fs, Returned, [Header, Footer])
    case Loaded(c) => Run(fs, Returned, [Header] + EntryLines(c) + [Footer])
  }
}

=== FILE: readme.dfy ===
/**
 * The README maintenance script: the hook list between the hooks markers
 * and the count badge between the badge markers are regenerated from the
 * catalog. Each replacement is `String.replace` with the regular expression
 * `<start>[\s\S]*<end>`: the match runs from the first start marker to the
 * last end marker after it, and text outside that span is kept.
 */
module ReadmeUpdater {
  import opened Wrappers
  import opened Strings
  import opened Catalog

  const HooksStart: string := "<!-- hooks starts -->"
  const HooksEnd: string := "<!-- hooks ends -->"
  const BadgeStart: string := "<!-- hook amount badge start -->"
  const BadgeEnd: string := "<!-- hook amount badge end -->"

  /** One `- <display name>` line per catalog entry, in key order. */
  function ListLines(c: Catalog): seq<string> {
    seq(|c|, i requires 0 <= i < |c| => "- " + c[i].entry.name)
  }

  /** The lines joined by newlines; an empty catalog gives the empty string. */
  function ListText(c: Catalog): string {
    JoinWith(ListLines(c), '\n')
  }

  /** `w` first occurs in `t` at `i`. */
  predicate FirstAt(t: string, w: string, i: int) {
    Occurs(t, w, i) && forall m :: 0 <= m < i ==> !Occurs(t, w, m)
  }

  /** `w` last occurs in `t` at `j`. */
  predicate LastAt(t: string, w: string, j: int) {
    Occurs(t, w, j) && forall m :: j < m <= |t| ==> !Occurs(t, w, m)
  }

  /** Some start marker is followed, without overlap, by some end marker. */
  ghost predicate HasPair(t: string, s: string, e: string) {
    exists a, c :: Occurs(t, s, a) && Occurs(t, e, c) && a + |s| <= c
  }

  /** Where the start marker and the end marker of the match lie. */
  datatype Span = Span(start: nat, end: nat)

  /** The match of `<s>[\s\S]*<e>`: the first `s`, and the last `e` that does not overlap it. */
  function Region(t: string, s: string, e: string): (r: Option<Span>)
    ensures r.Some? ==> FirstAt(t, s, r.value.start) && LastAt(t, e, r.value.end)
                        && r.value.start + |s| <= r.value.end
    ensures r.None? <==> !HasPair(t, s, e)
  {
    match IndexOf(t, s)
    case None => None
    case Some(i) =>
      match LastIndexOf(t, e)
      case None => None
      case Some(j) => if i + |s| <= j then Some(Span(i, j)) else None
  }

  /**
   * `t.replace(/<s>[\s\S]*<e>/, s + body + e)`: the matched span becomes the
   * two markers around `body`; without a match the text is returned as is.
   */
  function ReplaceRegion(t: string, s: string, e: string, body: string): (r: string)
    ensures Region(t, s, e).None? ==> r == t
  {
    match Region(t, s, e)
    case None => t
    case Some(sp) => t[..sp.start] + s + body + e + t[sp.end + |e|..]
  }

  /**
   * Text before the first start marker and after the last end marker is
   * kept; the span between becomes the two markers around `body`.
   */
  lemma ReplaceKeepsOutside(t: string, s: string, e: string, body: string)
    requires Region(t, s, e).Some?
    ensures var r := ReplaceRegion(t, s, e, body);
            var sp := Region(t, s, e).value;
            var tail := |t| - (sp.end + |e|);
            && |r| == sp.start + |s| + |body| + |e| + tail
            && r[..sp.start] == t[..sp.start]
            && r[sp.start..sp.start + |s| + |body| + |e|] == s + body + e
            && r[|r| - tail..] == t[|t| - tail..]
  {
    var sp := Region(t, s, e).value;
    ReplaceAt(t, s, e, body, sp.start, sp.end);
  }

  /** The first occurrence of `w` found by `indexOf` is the one `FirstAt` describes. */
  lemma FirstAtIndexOf(t: string, w: string, i: int)
    requires FirstAt(t, w, i)
    ensures IndexOf(t, w) == Some(i)
  {
  }

  lemma LastAtLastIndexOf(t: string, w: string, j: int)
    requires LastAt(t, w, j)
    ensures LastIndexOf(t, w) == Some(j)
  {
  }

  /** Whether a window lies in the first part of a concatenation or in the second. */
  lemma OccursSplit(x: string, y: string, w: string, m: int)
    ensures m + |w| <= |x| ==> (Occurs(x + y, w, m) <==> Occurs(x, w, m))
    ensures m >= 0 ==> (Occurs(x + y, w, |x| + m) <==> Occurs(y, w, m))
  {
    if m + |w| <= |x| && 0 <= m {
      assert (x + y)[m..m + |w|] == x[m..m + |w|];
    }
    if m >= 0 && |x| + m + |w| <= |x + y| {
      assert (x + y)[|x| + m..|x| + m + |w|] == y[m..m + |w|];
    }
  }

  /** A first occurrence inside a kept prefix stays the first whatever follows the prefix. */
  lemma FirstKept(x: string, y1: string, y2: string, w: string, i: int)
    requires FirstAt(x + y1, w, i) && i + |w| <= |x|
    ensures FirstAt(x + y2, w, i)
  {
    OccursSplit(x, y1, w, i);
    OccursSplit(x, y2, w, i);
    forall m | 0 <= m < i ensures !Occurs(x + y2, w, m) {
      OccursSplit(x, y1, w, m);
      OccursSplit(x, y2, w, m);
    }
  }

  /** A last occurrence that starts a kept suffix stays the last whatever precedes the suffix. */
  lemma LastKept(x1: string, x2: string, y: string, w: string)
    requires LastAt(x1 + y, w, |x1|)
    ensures LastAt(x2 + y, w, |x2|)
  {
    OccursSplit(x1, y, w, 0);
    OccursSplit(x2, y, w, 0);
    forall m | |x2| < m <= |x2 + y| ensures !Occurs(x2 + y, w, m) {
      OccursSplit(x1, y, w, m - |x2|);
      OccursSplit(x2, y, w, m - |x2|);
    }
  }

  /** The replacement in terms of the matched span. */
  lemma ReplaceAt(t: string, s: string, e: string, body: string, i: nat, j: nat)
    requires Region(t, s, e) == Some(Span(i, j))
    ensures ReplaceRegion(t, s, e, body) == t[..i] + s + body + e + t[j + |e|..]
  {
  }

  /** A text cut at a matched span: what precedes, the start marker, the middle, the end marker, the rest. */
  lemma CutAt(t: string, s: string, e: string, i: nat, j: nat)
    requires Occurs(t, s, i) && Occurs(t, e, j) && i + |s| <= j
    ensures t == (t[..i] + s) + (t[i + |s|..j] + e + t[j + |e|..])
    ensures t == (t[..i] + s + t[i + |s|..j]) + (e + t[j + |e|..])
  {
    assert t == t[..i] + t[i..i + |s|] + t[i + |s|..j] + t[j..j + |e|] + t[j + |e|..];
  }

  /** Replacing a matched span a second time with the same body changes nothing. */
  lemma ReplaceRegionIdempotent(t: string, s: string, e: string, body: string)
    ensures ReplaceRegion(ReplaceRegion(t, s, e, body), s, e, body) == ReplaceRegion(t, s, e, body)
  {
    var sp := Region(t, s, e);
    if sp.Some? {
      var i, j := sp.value.start, sp.value.end;
      var r := t[..i] + s + body + e + t[j + |e|..];
      ReplaceAt(t, s, e, body, i, j);
      RegionOfReplaced(t, s, e, body, i, j);
      ReplacedAgain(t[..i], s, body, e, t[j + |e|..]);
    }
  }

  /** After a replacement the match spans exactly the two markers around the new body. */
  lemma RegionOfReplaced(t: string, s: string, e: string, body: string, i: nat, j: nat)
    requires Region(t, s, e) == Some(Span(i, j))
    ensures Region(t[..i] + s + body + e + t[j + |e|..], s, e) == Some(Span(i, i + |s| + |body|))
  {
    MarkersAfterReplace(t, s, e, body, i, j);
    RegionAt(t[..i] + s + body + e + t[j + |e|..], s, e, i, i + |s| + |body|);
  }

  /** The first start marker and the last end marker of a replaced text are the ones around the new body. */
  lemma MarkersAfterReplace(t: string, s: string, e: string, body: string, i: nat, j: nat)
    requires FirstAt(t, s, i) && LastAt(t, e, j) && i + |s| <= j
    ensures var r := t[..i] + s + body + e + t[j + |e|..];
            FirstAt(r, s, i) && LastAt(r, e, i + |s| + |body|)
  {
    var a, mid, rest := t[..i], t[i + |s|..j], t[j + |e|..];
    CutAt(t, s, e, i, j);
    FirstAfterReplace(t, a, s, mid, e, rest, body);
    LastAfterReplace(t, a, s, mid, e, rest, body);
  }

  /** The start marker that begins the match stays the first one when the middle is replaced. */
  lemma FirstAfterReplace(t: string, a: string, s: string, mid: string, e: string, rest: string, body: string)
    requires t == (a + s) + (mid + e + rest) && FirstAt(t, s, |a|)
    ensures FirstAt(a + s + body + e + rest, s, |a|)
  {
    assert a + s + body + e + rest == (a + s) + (body + e + rest);
    FirstKept(a + s, mid + e + rest, body + e + rest, s, |a|);
  }

  /** The end marker that ends the match stays the last one when the middle is replaced. */
  lemma LastAfterReplace(t: string, a: string, s: string, mid: string, e: string, rest: string, body: string)
    requires t == (a + s + mid) + (e + rest) && LastAt(t, e, |a + s + mid|)
    ensures LastAt(a + s + body + e + rest, e, |a| + |s| + |body|)
  {
    assert a + s + body + e + rest == (a + s + body) + (e + rest);
    LastKept(a + s + mid, a + s + body, e + rest, e);
  }

  /** Replacing the span of `a + s + body + e + rest` with the same body gives the same text. */
  lemma ReplacedAgain(a: string, s: string, body: string, e: string, rest: string)
    requires Region(a + s + body + e + rest, s, e) == Some(Span(|a|, |a| + |s| + |body|))
    ensures ReplaceRegion(a + s + body + e + rest, s, e, body) == a + s + body + e + rest
  {
    var r := a + s + body + e + rest;
    var k := |a| + |s| + |body|;
    ReplaceAt(r, s, e, body, |a|, k);
    assert r[..|a|] == a;
    assert r[k + |e|..] == rest;
  }

  /** Either marker missing: the text is returned unchanged. */
  lemma MissingMarkerKeepsText(t: string, s: string, e: string, body: string)
    requires !Contains(t, s) || !Contains(t, e)
    ensures ReplaceRegion(t, s, e, body) == t
  {
  }

  /** A replacement leaves the text as it is exactly when there is no match or the match already holds `body`. */
  lemma StableIff(t: string, s: string, e: string, body: string)
    requires Region(t, s, e).Some?
    ensures var sp := Region(t, s, e).value;
            ReplaceRegion(t, s, e, body) == t <==> t[sp.start + |s|..sp.end] == body
  {
    var sp := Region(t, s, e).value;
    var i, j := sp.start, sp.end;
    ReplaceAt(t, s, e, body, i, j);
    CutAt(t, s, e, i, j);
    var p, mid, q := t[..i], t[i + |s|..j], t[j + |e|..];
    assert t == p + s + mid + e + q;
    SameFrame(p, s, mid, body, e, q);
  }

  /** Two texts with the same frame around their middles are equal exactly when the middles are. */
  lemma SameFrame(p: string, s: string, x: string, y: string, e: string, q: string)
    ensures p + s + x + e + q == p + s + y + e + q <==> x == y
  {
    var a := p + s;
    if p + s + x + e + q == p + s + y + e + q {
      assert |x| == |y|;
      assert x == (p + s + x + e + q)[|a|..|a| + |x|];
      assert y == (p + s + y + e + q)[|a|..|a| + |y|];
    }
  }

  // The four marker comments start with `<`, contain no other `<`, and the
  // hooks markers differ from the badge markers at index 9. So an occurrence
  // of one marker can neither overlap nor coincide with an occurrence of
  // another: this is what keeps the two replacements out of each other's way.

  /** A marker comment: at least ten characters, `<` first and nowhere else. */
  predicate Tagged(w: string) {
    |w| > 9 && w[0] == '<' && forall k :: 1 <= k < |w| ==> w[k] != '<'
  }

  lemma MarkersTagged()
    ensures Tagged(HooksStart) && Tagged(HooksEnd) && Tagged(BadgeStart) && Tagged(BadgeEnd)
    ensures HooksStart[9] == 's' && HooksEnd[9] == 's' && BadgeStart[9] == ' ' && BadgeEnd[9] == ' '
  {
  }

  /**
   * An occurrence of a tagged marker `w` lies wholly before or wholly after
   * a block `v1 + mid + v2` framed by tagged markers that differ from `w`,
   * when `mid` does not contain `w`.
   */
  lemma {:induction false} OutsideBlock(p: string, v1: string, mid: string, v2: string, q: string, w: string, m: int)
    requires Tagged(v1) && Tagged(v2) && Tagged(w) && v1[9] != w[9] && v2[9] != w[9]
    requires !Contains(mid, w)
    requires Occurs(p + v1 + mid + v2 + q, w, m)
    ensures m + |w| <= |p| || m >= |p| + |v1| + |mid| + |v2|
  {
    var u := p + v1 + mid + v2 + q;
    var x0, x1 := |p|, |p| + |v1|;
    var x2, x3 := x1 + |mid|, x1 + |mid| + |v2|;
    assert forall k :: 0 <= k < |v1| ==> u[x0 + k] == v1[k];
    assert forall k :: 0 <= k < |mid| ==> u[x1 + k] == mid[k];
    assert forall k :: 0 <= k < |v2| ==> u[x2 + k] == v2[k];
    if m + |w| > x0 && m < x3 {
      if m < x0 {
        OccursChar(u, w, m, x0);
      } else if m == x0 {
        OccursChar(u, w, m, m + 9);
      } else if m < x1 {
        OccursChar(u, w, m, m);
      } else if m < x2 {
        if m + |w| <= x2 {
          assert u[m..m + |w|] == mid[m - x1..m - x1 + |w|];
          assert Occurs(mid, w, m - x1);
        } else {
          OccursChar(u, w, m, x2);
        }
      } else if m == x2 {
        OccursChar(u, w, m, m + 9);
      } else {
        OccursChar(u, w, m, m);
      }
    }
  }

  /**
   * `u` is `h` with the block of length `ly` at `lp` swapped for a block of
   * length `lx`: the parts before and after the block are the same.
   */
  predicate Swapped(h: string, u: string, lp: nat, ly: nat, lx: nat) {
    && lp + ly <= |h| && lp + lx <= |u| && |h| - ly == |u| - lx
    && h[..lp] == u[..lp] && h[lp + ly..] == u[lp + lx..]
  }

  /** Every occurrence of `w` in `u` lies before the swapped block or after it. */
  ghost predicate Untouched(u: string, lp: nat, lx: nat, w: string) {
    forall m :: Occurs(u, w, m) ==> m + |w| <= lp || m >= lp + lx
  }

  /** A slice of a suffix is a slice of the whole. */
  lemma SliceOfSuffix(t: string, k: nat, a: nat, b: nat)
    requires a <= b && k + b <= |t|
    ensures t[k..][a..b] == t[k + a..k + b]
  {
  }

  /** Occurrences inside the kept parts are the same before and after the swap. */
  lemma Transfer(h: string, u: string, lp: nat, ly: nat, lx: nat, w: string, m: int)
    requires Swapped(h, u, lp, ly, lx)
    ensures 0 <= m && m + |w| <= lp ==> (Occurs(u, w, m) <==> Occurs(h, w, m))
    ensures m >= 0 ==> (Occurs(u, w, lp + lx + m) <==> Occurs(h, w, lp + ly + m))
  {
    if 0 <= m && m + |w| <= lp {
      assert u[m..m + |w|] == u[..lp][m..m + |w|];
      assert h[m..m + |w|] == h[..lp][m..m + |w|];
    }
    if m >= 0 && lp + lx + m + |w| <= |u| {
      SliceOfSuffix(u, lp + lx, m, m + |w|);
      SliceOfSuffix(h, lp + ly, m, m + |w|);
    }
  }

  /** No start marker followed by an end marker before the swap, none after. */
  lemma SwapNoMatch(h: string, u: string, lp: nat, ly: nat, lx: nat, s: string, e: string)
    requires Swapped(h, u, lp, ly, lx)
    requires Untouched(u, lp, lx, s) && Untouched(u, lp, lx, e)
    requires !HasPair(h, s, e)
    ensures !HasPair(u, s, e)
  {
    forall a, c | Occurs(u, s, a) && Occurs(u, e, c)
      ensures c < a + |s|
    {
      if a + |s| <= lp {
        Transfer(h, u, lp, ly, lx, s, a);
        Transfer(h, u, lp, ly, lx, e, c);
        Transfer(h, u, lp, ly, lx, e, c - lp - lx);
      } else {
        Transfer(h, u, lp, ly, lx, s, a - lp - lx);
        Transfer(h, u, lp, ly, lx, e, c - lp - lx);
      }
    }
  }

  /** A first start marker inside the kept prefix stays first. */
  lemma SwapFirstBefore(h: string, u: string, lp: nat, ly: nat, lx: nat, s: string, i: nat)
    requires Swapped(h, u, lp, ly, lx)
    requires FirstAt(h, s, i) && i + |s| <= lp
    ensures FirstAt(u, s, i)
  {
    Transfer(h, u, lp, ly, lx, s, i);
    forall m | 0 <= m < i ensures !Occurs(u, s, m) {
      Transfer(h, u, lp, ly, lx, s, m);
    }
  }

  /** A last end marker inside the kept prefix stays last. */
  lemma SwapLastBefore(h: string, u: string, lp: nat, ly: nat, lx: nat, e: string, j: nat)
    requires Swapped(h, u, lp, ly, lx) && Untouched(u, lp, lx, e)
    requires LastAt(h, e, j) && j + |e| <= lp && |e| > 0
    ensures LastAt(u, e, j)
  {
    Transfer(h, u, lp, ly, lx, e, j);
    forall m | j < m <= |u| ensures !Occurs(u, e, m) {
      Transfer(h, u, lp, ly, lx, e, m);
      Transfer(h, u, lp, ly, lx, e, m - lp - lx);
      assert Occurs(u, e, m) && m >= lp + lx ==> Occurs(h, e, m - lx + ly);
    }
  }

  /** A first start marker inside the kept suffix stays first, moved by the change in length. */
  lemma SwapFirstAfter(h: string, u: string, lp: nat, ly: nat, lx: nat, s: string, i: nat)
    requires Swapped(h, u, lp, ly, lx) && Untouched(u, lp, lx, s)
    requires FirstAt(h, s, i) && lp + ly <= i && |s| > 0
    ensures FirstAt(u, s, i + lx - ly)
  {
    Transfer(h, u, lp, ly, lx, s, i - lp - ly);
    forall m | 0 <= m < i + lx - ly ensures !Occurs(u, s, m) {
      Transfer(h, u, lp, ly, lx, s, m);
      Transfer(h, u, lp, ly, lx, s, m - lp - lx);
      assert Occurs(u, s, m) && m >= lp + lx ==> Occurs(h, s, m - lx + ly);
    }
  }

  /** A last end marker inside the kept suffix stays last, moved by the change in length. */
  lemma SwapLastAfter(h: string, u: string, lp: nat, ly: nat, lx: nat, e: string, j: nat)
    requires Swapped(h, u, lp, ly, lx) && Untouched(u, lp, lx, e)
    requires LastAt(h, e, j) && lp + ly <= j
    ensures LastAt(u, e, j + lx - ly)
  {
    Transfer(h, u, lp, ly, lx, e, j - lp - ly);
    forall m | j + lx - ly < m <= |u| ensures !Occurs(u, e, m) {
      if Occurs(u, e, m) {
        Transfer(h, u, lp, ly, lx, e, m - lp - lx);
      }
    }
  }

  /** A start marker first found after the block and an end marker last found before it leave no match. */
  lemma SwapMatchInside(h: string, u: string, lp: nat, ly: nat, lx: nat, s: string, e: string, i: nat, j: nat)
    requires Swapped(h, u, lp, ly, lx) && Untouched(u, lp, lx, s) && Untouched(u, lp, lx, e)
    requires FirstAt(h, s, i) && LastAt(h, e, j) && |s| > 0
    requires lp <= i && j < lp + ly
    ensures !HasPair(u, s, e)
  {
    forall a, c | Occurs(u, s, a) && Occurs(u, e, c)
      ensures c < a + |s|
    {
      Transfer(h, u, lp, ly, lx, s, a);
      Transfer(h, u, lp, ly, lx, e, c - lp - lx);
    }
  }

  /** The slice between two positions of the kept suffix is the same before and after the swap. */
  lemma SwapSliceAfter(h: string, u: string, lp: nat, ly: nat, lx: nat, k1: nat, k2: nat)
    requires Swapped(h, u, lp, ly, lx) && lp + ly <= k1 <= k2 <= |h|
    ensures u[k1 + lx - ly..k2 + lx - ly] == h[k1..k2]
  {
    var o1, o2 := k1 - lp - ly, k2 - lp - ly;
    var hs, us := h[lp + ly..], u[lp + lx..];
    assert hs == us;
    assert h[k1..k2] == hs[o1..o2];
    assert u[k1 + lx - ly..k2 + lx - ly] == us[o1..o2];
  }

  /** The slice between two positions of the kept prefix is the same before and after the swap. */
  lemma SwapSliceBefore(h: string, u: string, lp: nat, ly: nat, lx: nat, k1: nat, k2: nat)
    requires Swapped(h, u, lp, ly, lx) && k1 <= k2 <= lp
    ensures u[k1..k2] == h[k1..k2]
  {
    assert u[k1..k2] == u[..lp][k1..k2];
    assert h[k1..k2] == h[..lp][k1..k2];
  }

  /** A match, described by where its markers are. */
  lemma RegionAt(t: string, s: string, e: string, i: nat, j: nat)
    requires FirstAt(t, s, i) && LastAt(t, e, j) && i + |s| <= j
    ensures Region(t, s, e) == Some(Span(i, j))
  {
    FirstAtIndexOf(t, s, i);
    LastAtLastIndexOf(t, e, j);
  }

  /** The list block lies after the swapped badge block. */
  lemma ListAfterBadge(h: string, u: string, lp: nat, ly: nat, lx: nat, hb: string, i: nat, j: nat)
    requires Swapped(h, u, lp, ly, lx) && Untouched(u, lp, lx, HooksStart) && Untouched(u, lp, lx, HooksEnd)
    requires FirstAt(h, HooksStart, i) && LastAt(h, HooksEnd, j) && i + |HooksStart| <= j
    requires h[i + |HooksStart|..j] == hb && lp + ly <= i
    ensures ReplaceRegion(u, HooksStart, HooksEnd, hb) == u
  {
    var i2, j2 := i + lx - ly, j + lx - ly;
    SwapFirstAfter(h, u, lp, ly, lx, HooksStart, i);
    SwapLastAfter(h, u, lp, ly, lx, HooksEnd, j);
    RegionAt(u, HooksStart, HooksEnd, i2, j2);
    SwapSliceAfter(h, u, lp, ly, lx, i + |HooksStart|, j);
    assert u[i2 + |HooksStart|..j2] == hb;
    StableIff(u, HooksStart, HooksEnd, hb);
  }

  /** The list block lies before the swapped badge block. */
  lemma ListBeforeBadge(h: string, u: string, lp: nat, ly: nat, lx: nat, hb: string, i: nat, j: nat)
    requires Swapped(h, u, lp, ly, lx) && Untouched(u, lp, lx, HooksEnd)
    requires FirstAt(h, HooksStart, i) && LastAt(h, HooksEnd, j) && i + |HooksStart| <= j
    requires h[i + |HooksStart|..j] == hb && j + |HooksEnd| <= lp
    ensures ReplaceRegion(u, HooksStart, HooksEnd, hb) == u
  {
    SwapFirstBefore(h, u, lp, ly, lx, HooksStart, i);
    SwapLastBefore(h, u, lp, ly, lx, HooksEnd, j);
    RegionAt(u, HooksStart, HooksEnd, i, j);
    SwapSliceBefore(h, u, lp, ly, lx, i + |HooksStart|, j);
    StableIff(u, HooksStart, HooksEnd, hb);
  }

  /**
   * Swapping in the badge block keeps a README whose list block is up to
   * date up to date: the badge markers never fall inside the list block,
   * so the badge span lies before it, after it, or around it.
   */
  lemma BadgeKeepsListCurrent(h: string, hb: string, bb: string)
    requires ReplaceRegion(h, HooksStart, HooksEnd, hb) == h
    requires !Contains(hb, BadgeStart) && !Contains(hb, BadgeEnd)
    requires !Contains(bb, HooksStart) && !Contains(bb, HooksEnd)
    ensures var u := ReplaceRegion(h, BadgeStart, BadgeEnd, bb);
            ReplaceRegion(u, HooksStart, HooksEnd, hb) == u
  {
    var b := Region(h, BadgeStart, BadgeEnd);
    if b.Some? {
      var bi, bj := b.value.start, b.value.end;
      var u := ReplaceRegion(h, BadgeStart, BadgeEnd, bb);
      var lp, ly, lx := bi, bj + |BadgeEnd| - bi, |BadgeStart| + |bb| + |BadgeEnd|;
      BadgeSwap(h, bb, bi, bj);
      var hr := Region(h, HooksStart, HooksEnd);
      if hr.None? {
        SwapNoMatch(h, u, lp, ly, lx, HooksStart, HooksEnd);
      } else {
        var i, j := hr.value.start, hr.value.end;
        StableIff(h, HooksStart, HooksEnd, hb);
        BadgeOutsideList(h, hb, i, j, bi, bj);
        MarkersTagged();
        if bj + |BadgeEnd| <= i {
          ListAfterBadge(h, u, lp, ly, lx, hb, i, j);
        } else if j + |HooksEnd| <= bi {
          ListBeforeBadge(h, u, lp, ly, lx, hb, i, j);
        } else {
          SwapMatchInside(h, u, lp, ly, lx, HooksStart, HooksEnd, i, j);
        }
      }
    }
  }

  /** The badge replacement as a swap that no hooks marker straddles. */
  lemma BadgeSwap(h: string, bb: string, bi: nat, bj: nat)
    requires Region(h, BadgeStart, BadgeEnd) == Some(Span(bi, bj))
    requires !Contains(bb, HooksStart) && !Contains(bb, HooksEnd)
    ensures var u := ReplaceRegion(h, BadgeStart, BadgeEnd, bb);
            var lp, ly, lx := bi, bj + |BadgeEnd| - bi, |BadgeStart| + |bb| + |BadgeEnd|;
            && Swapped(h, u, lp, ly, lx)
            && Untouched(u, lp, lx, HooksStart) && Untouched(u, lp, lx, HooksEnd)
  {
    MarkersTagged();
    var p, q := h[..bi], h[bj + |BadgeEnd|..];
    var u := p + BadgeStart + bb + BadgeEnd + q;
    ReplaceAt(h, BadgeStart, BadgeEnd, bb, bi, bj);
    assert u[..bi] == p;
    assert u[bi + |BadgeStart| + |bb| + |BadgeEnd|..] == q;
    forall w, m | (w == HooksStart || w == HooksEnd) && Occurs(u, w, m)
      ensures m + |w| <= bi || m >= bi + |BadgeStart| + |bb| + |BadgeEnd|
    {
      OutsideBlock(p, BadgeStart, bb, BadgeEnd, q, w, m);
    }
  }

  /** The list replacement as a swap that no badge marker straddles. */
  lemma HooksSwap(h: string, hb: string, i: nat, j: nat)
    requires Region(h, HooksStart, HooksEnd) == Some(Span(i, j))
    requires !Contains(hb, BadgeStart) && !Contains(hb, BadgeEnd)
    ensures var u := ReplaceRegion(h, HooksStart, HooksEnd, hb);
            var lp, ly, lx := i, j + |HooksEnd| - i, |HooksStart| + |hb| + |HooksEnd|;
            && Swapped(h, u, lp, ly, lx)
            && Untouched(u, lp, lx, BadgeStart) && Untouched(u, lp, lx, BadgeEnd)
  {
    MarkersTagged();
    var p, q := h[..i], h[j + |HooksEnd|..];
    var u := p + HooksStart + hb + HooksEnd + q;
    ReplaceAt(h, HooksStart, HooksEnd, hb, i, j);
    assert u[..i] == p;
    assert u[i + |HooksStart| + |hb| + |HooksEnd|..] == q;
    forall w, m | (w == BadgeStart || w == BadgeEnd) && Occurs(u, w, m)
      ensures m + |w| <= i || m >= i + |HooksStart| + |hb| + |HooksEnd|
    {
      OutsideBlock(p, HooksStart, hb, HooksEnd, q, w, m);
    }
  }

  /** Neither badge marker can sit inside an up-to-date list block. */
  lemma BadgeOutsideList(h: string, hb: string, i: nat, j: nat, bi: nat, bj: nat)
    requires FirstAt(h, HooksStart, i) && LastAt(h, HooksEnd, j) && i + |HooksStart| <= j
    requires h[i + |HooksStart|..j] == hb
    requires !Contains(hb, BadgeStart) && !Contains(hb, BadgeEnd)
    requires Occurs(h, BadgeStart, bi) && Occurs(h, BadgeEnd, bj)
    ensures bi + |BadgeStart| <= i || bi >= j + |HooksEnd|
    ensures bj + |BadgeEnd| <= i || bj >= j + |HooksEnd|
  {
    MarkersTagged();
    CutAt(h, HooksStart, HooksEnd, i, j);
    var hp, hq := h[..i], h[j + |HooksEnd|..];
    assert h == hp + HooksStart + hb + HooksEnd + hq;
    OutsideBlock(hp, HooksStart, hb, HooksEnd, hq, BadgeStart, bi);
    OutsideBlock(hp, HooksStart, hb, HooksEnd, hq, BadgeEnd, bj);
  }

  /** The README list block: the two markers around the list on lines of its own. */
  function HooksBody(list: string): string {
    "\n" + list + "\n"
  }

  /** `hooks.split("\n").length` for the list text. */
  function BadgeCount(c: Catalog): nat {
    |Split(ListText(c), '\n')|
  }

  /** The shields.io badge placed between the badge markers. */
  function BadgeBody(count: nat): string {
    BadgeAlt + ShieldsHost + BadgePath + NatToString(count) + BadgeSuffix
  }

  /** The pieces of the badge's Markdown image: alt text, shields.io address, count path and colour. */
  const BadgeAlt: string := "![Static Badge]("
  const ShieldsHost: string := "https://img.shields.io/"
  const BadgePath: string := "badge/hooks-"
  const BadgeSuffix: string := "-D368FF)\n"

  /** `updateReadmeHooks()` on the README text and the catalog: the list first, then the badge. */
  function UpdateReadme(readme: string, c: Catalog): (r: string)
    ensures !HasPair(readme, HooksStart, HooksEnd) && !HasPair(readme, BadgeStart, BadgeEnd) ==> r == readme
    ensures var sp := Region(readme, BadgeStart, BadgeEnd);
            !HasPair(readme, HooksStart, HooksEnd) && sp.Some? ==>
              r == readme[..sp.value.start] + BadgeStart + BadgeBody(BadgeCount(c)) + BadgeEnd
                   + readme[sp.value.end + |BadgeEnd|..]
    ensures NoBadgeMarkerIn(c) ==>
              && ReplaceRegion(r, HooksStart, HooksEnd, HooksBody(ListText(c))) == r
              && ReplaceRegion(r, BadgeStart, BadgeEnd, BadgeBody(BadgeCount(c))) == r
  {
    var hb, bb := HooksBody(ListText(c)), BadgeBody(BadgeCount(c));
    BadgeOnlyUpdate(readme, hb, bb);
    assert NoBadgeMarkerIn(c) ==>
             var u := ReplaceRegion(ReplaceRegion(readme, HooksStart, HooksEnd, hb), BadgeStart, BadgeEnd, bb);
             && ReplaceRegion(u, HooksStart, HooksEnd, hb) == u
             && ReplaceRegion(u, BadgeStart, BadgeEnd, bb) == u
    by {
      if NoBadgeMarkerIn(c) { RegionsCurrent(readme, c); }
    }
    ReplaceRegion(ReplaceRegion(readme, HooksStart, HooksEnd, hb), BadgeStart, BadgeEnd, bb)
  }

  /** Without a list region the two passes come down to the badge replacement alone. */
  lemma BadgeOnlyUpdate(readme: string, hb: string, bb: string)
    ensures var r := ReplaceRegion(ReplaceRegion(readme, HooksStart, HooksEnd, hb), BadgeStart, BadgeEnd, bb);
            var sp := Region(readme, BadgeStart, BadgeEnd);
            && (!HasPair(readme, HooksStart, HooksEnd) && sp.None? ==> r == readme)
            && (!HasPair(readme, HooksStart, HooksEnd) && sp.Some? ==>
                  r == readme[..sp.value.start] + BadgeStart + bb + BadgeEnd + readme[sp.value.end + |BadgeEnd|..])
  {
    var sp := Region(readme, BadgeStart, BadgeEnd);
    if !HasPair(readme, HooksStart, HooksEnd) && sp.Some? {
      ReplaceAt(readme, BadgeStart, BadgeEnd, bb, sp.value.start, sp.value.end);
    }
  }

  /**
   * A README with list markers but no badge markers: the list block is
   * replaced, and the text before the first start marker and after the last
   * end marker is kept as it was.
   */
  lemma UpdateReadmeListOnly(readme: string, c: Catalog)
    requires NoBadgeMarkerIn(c) && !HasPair(readme, BadgeStart, BadgeEnd)
    requires HasPair(readme, HooksStart, HooksEnd)
    ensures var sp := Region(readme, HooksStart, HooksEnd).value;
            UpdateReadme(readme, c)
              == readme[..sp.start] + HooksStart + HooksBody(ListText(c)) + HooksEnd + readme[sp.end + |HooksEnd|..]
  {
    var hb := HooksBody(ListText(c));
    var sp := Region(readme, HooksStart, HooksEnd).value;
    ReplaceAt(readme, HooksStart, HooksEnd, hb, sp.start, sp.end);
    ListKeepsNoBadge(readme, c);
  }

  /** Replacing the list brings no badge pair into a README that had none. */
  lemma ListKeepsNoBadge(readme: string, c: Catalog)
    requires NoBadgeMarkerIn(c) && !HasPair(readme, BadgeStart, BadgeEnd)
    requires HasPair(readme, HooksStart, HooksEnd)
    ensures !HasPair(ReplaceRegion(readme, HooksStart, HooksEnd, HooksBody(ListText(c))), BadgeStart, BadgeEnd)
  {
    MarkersTagged();
    ListBlockNoMarker(c, BadgeStart);
    ListBlockNoMarker(c, BadgeEnd);
    SwapKeepsNoBadge(readme, HooksBody(ListText(c)));
  }

  /** A list body without badge markers brings no badge pair into a README that had none. */
  lemma SwapKeepsNoBadge(h: string, hb: string)
    requires !Contains(hb, BadgeStart) && !Contains(hb, BadgeEnd)
    requires !HasPair(h, BadgeStart, BadgeEnd) && HasPair(h, HooksStart, HooksEnd)
    ensures !HasPair(ReplaceRegion(h, HooksStart, HooksEnd, hb), BadgeStart, BadgeEnd)
  {
    var sp := Region(h, HooksStart, HooksEnd).value;
    HooksSwap(h, hb, sp.start, sp.end);
    var u := ReplaceRegion(h, HooksStart, HooksEnd, hb);
    SwapNoMatch(h, u, sp.start, sp.end + |HooksEnd| - sp.start, |HooksStart| + |hb| + |HooksEnd|, BadgeStart, BadgeEnd);
  }

  /** No hook name contains a badge marker comment. */
  predicate NoBadgeMarkerIn(c: Catalog) {
    forall i :: 0 <= i < |c| ==> !Contains(c[i].entry.name, BadgeStart) && !Contains(c[i].entry.name, BadgeEnd)
  }

  /**
   * After both replacements the list region holds the current list and the
   * badge region the current badge: replacing either again changes nothing.
   */
  lemma RegionsCurrent(readme: string, c: Catalog)
    requires NoBadgeMarkerIn(c)
    ensures var hb, bb := HooksBody(ListText(c)), BadgeBody(BadgeCount(c));
            var u := ReplaceRegion(ReplaceRegion(readme, HooksStart, HooksEnd, hb), BadgeStart, BadgeEnd, bb);
            && ReplaceRegion(u, HooksStart, HooksEnd, hb) == u
            && ReplaceRegion(u, BadgeStart, BadgeEnd, bb) == u
  {
    var hb, bb := HooksBody(ListText(c)), BadgeBody(BadgeCount(c));
    MarkersTagged();
    ListBlockNoMarker(c, BadgeStart);
    ListBlockNoMarker(c, BadgeEnd);
    BadgeBlockNoMarker(BadgeCount(c), HooksStart);
    BadgeBlockNoMarker(BadgeCount(c), HooksEnd);
    var h := ReplaceRegion(readme, HooksStart, HooksEnd, hb);
    ReplaceRegionIdempotent(readme, HooksStart, HooksEnd, hb);
    BadgeKeepsListCurrent(h, hb, bb);
    ReplaceRegionIdempotent(h, BadgeStart, BadgeEnd, bb);
  }

  /**
   * The badge shows the number of catalog entries, provided no name spans
   * several lines; an empty catalog still shows 1, since splitting the empty
   * string gives one piece.
   */
  lemma BadgeCountsEntries(c: Catalog)
    requires forall i :: 0 <= i < |c| ==> '\n' !in c[i].entry.name
    ensures |c| == 0 ==> BadgeCount(c) == 1
    ensures |c| > 0 ==> BadgeCount(c) == |c|
    ensures |c| > 0 ==> Split(ListText(c), '\n') == ListLines(c)
  {
    var lines := ListLines(c);
    if |c| > 0 {
      forall i | 0 <= i < |lines| ensures '\n' !in lines[i] {
        assert lines[i] == "- " + c[i].entry.name;
      }
      SplitJoinWith(lines, '\n');
    }
  }

  /** A character `w` does not contain cannot be covered by an occurrence of `w`. */
  lemma {:induction false} NoOccurrenceAcross(a: string, c: char, b: string, w: string)
    requires c !in w && |w| > 0
    requires !Contains(a, w) && !Contains(b, w)
    ensures !Contains(a + [c] + b, w)
  {
    var t := a + [c] + b;
    forall m | 0 <= m && m + |w| <= |t| ensures !Occurs(t, w, m) {
      if m + |w| <= |a| {
        assert t[m..m + |w|] == a[m..m + |w|];
        assert !Occurs(a, w, m);
      } else if m > |a| {
        var k := m - |a| - 1;
        assert t[|a| + 1..] == b;
        SliceOfSuffix(t, |a| + 1, k, k + |w|);
        assert !Occurs(b, w, k);
      } else {
        assert t[|a|] == c;
        if Occurs(t, w, m) {
          OccursChar(t, w, m, |a|);
        }
      }
    }
  }

  /** Text without `<` contains no marker comment. */
  lemma NoAngleNoMarker(t: string, w: string)
    requires '<' !in t && |w| > 0 && w[0] == '<'
    ensures !Contains(t, w)
  {
    forall m | Occurs(t, w, m) ensures false {
      OccursChar(t, w, m, m);
    }
  }

  /** A list line holds a marker comment only if the name does. */
  lemma LineNoMarker(name: string, w: string)
    requires |w| > 0 && w[0] == '<' && !Contains(name, w)
    ensures !Contains("- " + name, w)
  {
    var t := "- " + name;
    forall m | Occurs(t, w, m) ensures false {
      if m < 2 {
        OccursChar(t, w, m, m);
      } else {
        assert t[m..m + |w|] == name[m - 2..m - 2 + |w|];
        assert Occurs(name, w, m - 2);
      }
    }
  }

  /** Lines joined by newlines hold a newline-free marker only if some line does. */
  lemma {:induction false} JoinNoMarker(lines: seq<string>, w: string)
    requires '\n' !in w && |w| > 0
    requires forall i :: 0 <= i < |lines| ==> !Contains(lines[i], w)
    ensures !Contains(JoinWith(lines, '\n'), w)
  {
    if |lines| > 1 {
      JoinNoMarker(lines[1..], w);
      NoOccurrenceAcross(lines[0], '\n', JoinWith(lines[1..], '\n'), w);
    }
  }

  /** The list block holds no badge marker as long as no hook name does. */
  lemma ListBlockNoMarker(c: Catalog, w: string)
    requires Tagged(w) && '\n' !in w
    requires forall i :: 0 <= i < |c| ==> !Contains(c[i].entry.name, w)
    ensures !Contains(HooksBody(ListText(c)), w)
  {
    var lines := ListLines(c);
    forall i | 0 <= i < |lines| ensures !Contains(lines[i], w) {
      LineNoMarker(c[i].entry.name, w);
    }
    JoinNoMarker(lines, w);
    var list := ListText(c);
    assert !Contains("", w);
    NoOccurrenceAcross("", '\n', list, w);
    assert "" + ['\n'] + list == "\n" + list;
    NoOccurrenceAcross("\n" + list, '\n', "", w);
    assert "\n" + list + ['\n'] + "" == HooksBody(list);
  }

  /** A short text holds no `<` when none of its characters is one. */
  lemma NoAngleLiteral(t: string)
    requires forall k :: 0 <= k < |t| ==> t[k] != '<'
    ensures '<' !in t
  {
  }

  /** The badge block holds no `<`, hence no marker comment. */
  lemma BadgeBlockNoMarker(count: nat, w: string)
    requires |w| > 0 && w[0] == '<'
    ensures !Contains(BadgeBody(count), w)
  {
    var digits := NatToString(count);
    NoAngleLiteral(BadgeAlt);
    NoAngleLiteral(ShieldsHost);
    NoAngleLiteral(BadgePath);
    NoAngleLiteral(BadgeSuffix);
    assert '<' !in digits by {
      assert forall k :: 0 <= k < |digits| ==> digits[k] != '<';
    }
    NoAngleNoMarker(BadgeAlt + ShieldsHost + BadgePath + digits + BadgeSuffix, w);
  }

  /**
   * Running the script a second time with the same catalog leaves the
   * README as the first run left it, provided no hook name contains a badge
   * marker comment.
   */
  lemma UpdateReadmeIdempotent(readme: string, c: Catalog)
    requires NoBadgeMarkerIn(c)
    ensures UpdateReadme(UpdateReadme(readme, c), c) == UpdateReadme(readme, c)
  {
    var r := UpdateReadme(readme, c);
    var h := ReplaceRegion(r, HooksStart, HooksEnd, HooksBody(ListText(c)));
    assert h == r;
    assert UpdateReadme(r, c) == ReplaceRegion(h, BadgeStart, BadgeEnd, BadgeBody(BadgeCount(c)));
  }
}

=== FILE: roundtrip.dfy ===
/**
 * The generator and the installer checked together: the catalog paths the
 * generator writes are exactly what the installer's destination rule needs
 * to give back the hook's own file name.
 */
module RoundTrip {
  import opened Wrappers
  import opened Strings
  import opened FileSystem
  import opened Catalog
  import opened Install
  import opened Generator
  import Console
  import ListCommand
  import ReadmeUpdater

  /** ".ts" occurs in the file name only as its suffix. */
  predicate SuffixOnly(f: string) {
    forall m :: 0 <= m < |f| && Occurs(f, ".ts", m) ==> m == |f| - 3
  }

  /** With ".ts" only at the end, the display name is the file name without its extension. */
  lemma DisplayNameDropsSuffix(f: string)
    requires EndsWith(f, ".ts") && SuffixOnly(f)
    ensures DisplayName(f) == f[..|f| - 3]
    ensures DisplayName(f) + ".ts" == f
  {
    assert Occurs(f, ".ts", |f| - 3);
    var i := IndexOf(f, ".ts");
    assert i == Some(|f| - 3);
    assert f[..|f| - 3] + ".ts" == f;
  }

  /** A `/`-free file name gives a `/`-free display name. */
  lemma DisplayNameHasNoSlash(f: string)
    requires EndsWith(f, ".ts") && SuffixOnly(f) && '/' !in f
    ensures '/' !in DisplayName(f)
  {
    DisplayNameDropsSuffix(f);
    var name := DisplayName(f);
    forall k | 0 <= k < |name| ensures name[k] != '/' {
      assert name[k] == f[k];
    }
  }

  /**
   * The round trip: for a `/`-free file name with ".ts" only as suffix, the
   * generated `ts` path's second `/`-piece is the file name again, so a
   * TypeScript install copies `<package>/ts/<file>` to `<folder>/<file>`.
   */
  lemma GeneratedNameIsInstalledName(f: string, root: Path, destination: AbsPath)
    requires EndsWith(f, ".ts") && '/' !in f && SuffixOnly(f)
    ensures var e := EntryFor(DisplayName(f));
            && SecondSegment(e.ts.value) == Some(f)
            && TargetFor(e, TypeScript, root, destination) == Some(Target(root + "/ts/" + f, destination + "/" + f))
  {
    DisplayNameDropsSuffix(f);
    var e := EntryFor(DisplayName(f));
    assert e.ts.value == "ts" + "/" + f;
    SecondSegmentOfPair("ts", f);
    TargetOfTwoPieces(e, TypeScript, root, destination, "ts", f);
    SlashedLiterals();
    PathPieces(root, "ts", "/ts/", f);
  }

  /** For any other language the installer copies `<package>/esm/<name>.js` to `<folder>/<name>.js`. */
  lemma GeneratedNameIsInstalledNameJs(f: string, language: string, root: Path, destination: AbsPath)
    requires EndsWith(f, ".ts") && '/' !in f && SuffixOnly(f)
    requires language != TypeScript
    ensures var name := DisplayName(f);
            TargetFor(EntryFor(name), language, root, destination)
            == Some(Target(root + "/esm/" + (name + ".js"), destination + "/" + (name + ".js")))
  {
    DisplayNameHasNoSlash(f);
    EsmTarget(DisplayName(f), language, root, destination);
  }

  /** The `js` path of a `/`-free hook name leads to `esm/<name>.js` and to `<folder>/<name>.js`. */
  lemma EsmTarget(name: string, language: string, root: Path, destination: AbsPath)
    requires '/' !in name && language != TypeScript
    ensures TargetFor(EntryFor(name), language, root, destination)
            == Some(Target(root + "/esm/" + (name + ".js"), destination + "/" + (name + ".js")))
  {
    var e := EntryFor(name);
    var js := name + ".js";
    assert '/' !in js;
    assert e.js.value == "esm" + "/" + js;
    TargetOfTwoPieces(e, language, root, destination, "esm", js);
    SlashedLiterals();
    PathPieces(root, "esm", "/esm/", js);
  }

  /** The two package directories between slashes, as single literals. */
  lemma SlashedLiterals()
    ensures "/ts/" == "/" + "ts" + "/"
    ensures "/esm/" == "/" + "esm" + "/"
  {
  }

  /** `root/dir/file` written with the slashes and the directory as one literal. */
  lemma PathPieces(root: string, dir: string, slashed: string, file: string)
    requires slashed == "/" + dir + "/"
    ensures root + "/" + (dir + "/" + file) == root + slashed + file
  {
  }

  /** Every generated path has a `/`, so no generated entry makes the installer's path rule throw. */
  lemma GeneratedEntryHasTarget(name: string, language: string, root: Path, destination: AbsPath)
    ensures HasTs(EntryFor(name))
    ensures TargetFor(EntryFor(name), language, root, destination).Some?
  {
    var e := EntryFor(name);
    assert e.ts.value[2] == '/';
    assert e.js.value[3] == '/';
  }

  /** No generated entry is skipped by the `"all"` loop. */
  lemma WithTsKeepsAll(c: Catalog)
    requires forall i :: 0 <= i < |c| ==> HasTs(c[i].entry)
    ensures WithTs(c) == seq(|c|, i requires 0 <= i < |c| => c[i].entry)
  {
    EveryPositionKept(c, |c|);
    forall i | 0 <= i < |c| ensures WithTs(c)[i] == c[i].entry {
      EveryPositionKept(c, i);
    }
  }

  /** When every entry has a `ts` path, each of the first `i` positions is kept. */
  lemma {:induction false} EveryPositionKept(c: Catalog, i: nat)
    requires i <= |c|
    requires forall k :: 0 <= k < |c| ==> HasTs(c[k].entry)
    ensures |TsPositions(c, i)| == i
  {
    if i > 0 {
      EveryPositionKept(c, i - 1);
      TsPositionsStep(c, i - 1);
    }
  }

  /**
   * On a generated catalog, `install all` plans one target per catalog
   * entry for either language: none is skipped and none throws.
   */
  lemma GeneratedCatalogPlansEveryEntry(files: seq<string>, language: string, root: Path, destination: AbsPath)
    ensures var c := Generate(files);
            && PlanAll(c, language, root, destination).Some?
            && |PlanAll(c, language, root, destination).value| == |c|
  {
    var c := Generate(files);
    forall i | 0 <= i < |c| ensures HasTs(c[i].entry) {
      GeneratedEntryHasTarget(c[i].entry.name, language, root, destination);
    }
    WithTsKeepsAll(c);
    var es := WithTs(c);
    forall i | 0 <= i < |es| ensures TargetFor(es[i], language, root, destination).Some? {
      GeneratedEntryHasTarget(c[i].entry.name, language, root, destination);
    }
  }

  /**
   * `list` and the README show the same hooks in the same order: the i-th
   * listed line and the i-th README line carry the same display name.
   */
  lemma ListMatchesReadme(fs: FS, c: KeyedCatalog)
    requires forall i :: 0 <= i < |c| ==> '\n' !in c[i].entry.name
    ensures var out := ListCommand.List(fs, Loaded(c)).out;
            var lines := if |c| == 0 then [] else Split(ReadmeUpdater.ListText(c), '\n');
            && |lines| == |out| - 2
            && forall i :: 0 <= i < |lines| ==> out[i + 1].text == "  " + lines[i]
  {
    if |c| > 0 {
      ReadmeUpdater.BadgeCountsEntries(c);
      var lines := ReadmeUpdater.ListLines(c);
      var out := ListCommand.List(fs, Loaded(c)).out;
      forall i | 0 <= i < |lines| ensures out[i + 1].text == "  " + lines[i] {
        IndentedLine(c[i].entry.name);
      }
    }
  }

  /** The list line and the README line for one name differ by the two-space indent. */
  lemma IndentedLine(name: string)
    ensures "  - " + name == "  " + ("- " + name)
  {
    assert "  - " == "  " + "- ";
  }
}

=== FILE: strings.dfy ===
/**
 * The JavaScript string operations the installer and its maintenance scripts
 * rely on: `indexOf`, `lastIndexOf`, `includes`, `endsWith`, `replace` with a
 * string pattern, `split` on a one-character separator, `Array.join`,
 * `toLowerCase` (ASCII letters only) and the decimal rendering of a count.
 */
module Strings {
  import opened Wrappers

  /** `w` occurs in `t` starting at index `k`. */
  predicate Occurs(t: string, w: string, k: int) {
    0 <= k && k + |w| <= |t| && t[k..k + |w|] == w
  }

  /** Index of the first occurrence of `w` at or after `k` (`t.indexOf(w, k)`, None for -1). */
  function IndexOfFrom(t: string, w: string, k: nat): (r: Option<nat>)
    decreases |t| - k
    ensures r.Some? ==> k <= r.value && Occurs(t, w, r.value)
    ensures r.Some? ==> forall m :: k <= m < r.value ==> !Occurs(t, w, m)
    ensures r.None? ==> forall m :: k <= m ==> !Occurs(t, w, m)
  {
    if k + |w| > |t| then None
    else if t[k..k + |w|] == w then Some(k)
    else IndexOfFrom(t, w, k + 1)
  }

  /** `t.indexOf(w)`: the first occurrence of `w` in `t`. */
  function IndexOf(t: string, w: string): (r: Option<nat>)
    ensures r.Some? ==> Occurs(t, w, r.value)
    ensures r.Some? ==> forall m :: 0 <= m < r.value ==> !Occurs(t, w, m)
    ensures r.None? ==> forall m :: !Occurs(t, w, m)
  {
    IndexOfFrom(t, w, 0)
  }

  /** The last occurrence of `w` in `t` that starts strictly before `k`. */
  function LastIndexBelow(t: string, w: string, k: nat): (r: Option<nat>)
    ensures r.Some? ==> r.value < k && Occurs(t, w, r.value)
    ensures r.Some? ==> forall m :: r.value < m < k ==> !Occurs(t, w, m)
    ensures r.None? ==> forall m :: m < k ==> !Occurs(t, w, m)
  {
    if k == 0 then None
    else if Occurs(t, w, k - 1) then Some(k - 1)
    else LastIndexBelow(t, w, k - 1)
  }

  /** `t.lastIndexOf(w)`: the last occurrence of `w` in `t`. */
  function LastIndexOf(t: string, w: string): (r: Option<nat>)
    ensures r.Some? ==> Occurs(t, w, r.value)
    ensures r.Some? ==> forall m :: r.value < m ==> !Occurs(t, w, m)
    ensures r.None? ==> forall m :: !Occurs(t, w, m)
  {
    LastIndexBelow(t, w, |t| + 1)
  }

  /** `t.includes(w)`. */
  predicate Contains(t: string, w: string)
    ensures Contains(t, w) <==> exists m :: Occurs(t, w, m)
  {
    IndexOf(t, w).Some?
  }

  /** `s.endsWith(suffix)`. */
  predicate EndsWith(s: string, suffix: string) {
    |suffix| <= |s| && s[|s| - |suffix|..] == suffix
  }

  /** `s.replace(pat, rep)` with a string pattern: only the first occurrence is replaced. */
  function ReplaceFirst(s: string, pat: string, rep: string): (r: string)
    ensures !Contains(s, pat) ==> r == s
    ensures Contains(s, pat) ==> |r| == |s| - |pat| + |rep|
  {
    match IndexOf(s, pat)
    case None => s
    case Some(i) => s[..i] + rep + s[i + |pat|..]
  }

  /** `replace` swaps the first occurrence of the pattern, and only that one, for the replacement. */
  lemma ReplaceFirstAt(s: string, pat: string, rep: string, i: int)
    requires Occurs(s, pat, i) && forall m :: 0 <= m < i ==> !Occurs(s, pat, m)
    ensures ReplaceFirst(s, pat, rep) == s[..i] + rep + s[i + |pat|..]
  {
  }

  /** Number of occurrences of the character `c` in `s`. */
  function CountChar(s: string, c: char): (n: nat)
    ensures n <= |s|
    ensures n == 0 <==> c !in s
  {
    if |s| == 0 then 0
    else (if s[0] == c then 1 else 0) + CountChar(s[1..], c)
  }

  /** `parts.join(sep)`; the empty array joins to the empty string. */
  function JoinWith(parts: seq<string>, sep: char): string {
    if |parts| == 0 then ""
    else if |parts| == 1 then parts[0]
    else parts[0] + [sep] + JoinWith(parts[1..], sep)
  }

  /** `s.split(sep)` for a one-character separator: never empty, pieces never contain `sep`. */
  function Split(s: string, sep: char): (parts: seq<string>)
    ensures |parts| == CountChar(s, sep) + 1
    ensures forall i :: 0 <= i < |parts| ==> sep !in parts[i]
    ensures JoinWith(parts, sep) == s
  {
    if |s| == 0 then [""]
    else
      var rest := Split(s[1..], sep);
      if s[0] == sep then
        assert ([""] + rest)[1..] == rest;
        [""] + rest
      else
        var parts := [[s[0]] + rest[0]] + rest[1..];
        assert parts[1..] == rest[1..];
        assert s == [s[0]] + s[1..];
        parts
  }

  /** Splitting a string that starts with a separator-free piece and a separator. */
  lemma {:induction false} SplitAfterPiece(a: string, sep: char, b: string)
    requires sep !in a
    ensures Split(a + [sep] + b, sep) == [a] + Split(b, sep)
    decreases |a|
  {
    if |a| == 0 {
      assert a + [sep] + b == [sep] + b;
      assert ([sep] + b)[1..] == b;
    } else {
      var t := a + [sep] + b;
      assert t[0] == a[0];
      assert t[1..] == a[1..] + [sep] + b;
      SplitAfterPiece(a[1..], sep, b);
      assert [a[0]] + a[1..] == a;
    }
  }

  /** `(a + "/" + b + "/" + c).split("/")[1] == b`: everything after the second `/` is dropped. */
  lemma SecondSegmentOfTriple(a: string, b: string, c: string)
    requires '/' !in a && '/' !in b
    ensures SecondSegment(a + "/" + b + "/" + c) == Some(b)
  {
    var p := a + "/" + b + "/" + c;
    SplitAfterPiece(b, '/', c);
    SplitAfterPiece(a, '/', b + "/" + c);
    assert p == a + ['/'] + (b + ['/'] + c);
    assert Split(p, '/')[1] == b;
  }

  /** `split` undoes `join` when no piece contains the separator. */
  lemma {:induction false} SplitJoinWith(parts: seq<string>, sep: char)
    requires |parts| >= 1
    requires forall i :: 0 <= i < |parts| ==> sep !in parts[i]
    ensures Split(JoinWith(parts, sep), sep) == parts
    decreases |parts|
  {
    if |parts| == 1 {
      SplitNoSeparator(parts[0], sep);
    } else {
      SplitJoinWith(parts[1..], sep);
      SplitAfterPiece(parts[0], sep, JoinWith(parts[1..], sep));
      assert [parts[0]] + parts[1..] == parts;
    }
  }

  /** A string without the separator splits into itself alone. */
  lemma {:induction false} SplitNoSeparator(s: string, sep: char)
    requires sep !in s
    ensures Split(s, sep) == [s]
  {
    var parts := Split(s, sep);
    assert |parts| == 1;
    assert JoinWith(parts, sep) == parts[0];
  }

  /**
   * `p.split("/")[1]`: absent without a `/`; otherwise the text after the
   * first `/` (at index `i`, the length of the first piece), up to the
   * next `/` or the end.
   */
  function SecondSegment(p: string): (r: Option<string>)
    ensures r.None? <==> '/' !in p
    ensures r.Some? ==> '/' !in r.value && |r.value| < |p|
    ensures r.Some? ==> var i := |Split(p, '/')[0]|;
                        && i < |p| && p[i] == '/' && '/' !in p[..i]
                        && |r.value| <= |p| - (i + 1)
                        && p[i + 1..][..|r.value|] == r.value
                        && (|r.value| == |p| - (i + 1) || p[i + 1..][|r.value|] == '/')
  {
    var parts := Split(p, '/');
    if |parts| >= 2 then
      SegmentShorter(parts, '/');
      assert CountChar(p, '/') > 0;
      SecondPieceAfterFirstSlash(p);
      FirstPiece(p[|parts[0]| + 1..], '/');
      Some(parts[1])
    else None
  }

  /** The first piece ends at the first separator, and the second piece starts right after it. */
  lemma SecondPieceAfterFirstSlash(p: string)
    requires '/' in p
    ensures var i := |Split(p, '/')[0]|;
            && i < |p| && p[i] == '/' && '/' !in p[..i]
            && |Split(p, '/')| >= 2 && Split(p, '/')[1] == Split(p[i + 1..], '/')[0]
  {
    FirstPiece(p, '/');
    var i := |Split(p, '/')[0]|;
    assert p[..i] == Split(p, '/')[0];
    SplitAtFirstSlash(p, i);
  }

  /** Splitting at the first separator: the second piece is the first piece of what follows it. */
  lemma SplitAtFirstSlash(p: string, i: nat)
    requires i < |p| && p[i] == '/' && '/' !in p[..i]
    ensures |Split(p, '/')| >= 2 && Split(p, '/')[1] == Split(p[i + 1..], '/')[0]
  {
    assert p == p[..i] + ['/'] + p[i + 1..];
    SplitAfterPiece(p[..i], '/', p[i + 1..]);
  }

  /** The first piece of a split is the text up to the first separator, or all of it. */
  lemma {:induction false} FirstPiece(b: string, sep: char)
    ensures var piece := Split(b, sep)[0];
            && |piece| <= |b|
            && b[..|piece|] == piece
            && (|piece| == |b| || b[|piece|] == sep)
  {
    if |b| > 0 && b[0] != sep {
      FirstPiece(b[1..], sep);
    }
  }

  /** Every piece but the whole is shorter than the joined string. */
  lemma SegmentShorter(parts: seq<string>, sep: char)
    requires |parts| >= 2
    ensures |parts[1]| < |JoinWith(parts, sep)|
  {
    var rest := parts[1..];
    assert |JoinWith(parts, sep)| == |parts[0]| + 1 + |JoinWith(rest, sep)|;
    if |rest| > 1 {
      assert JoinWith(rest, sep) == rest[0] + [sep] + JoinWith(rest[1..], sep);
    }
  }

  /** The round trip of the installer's destination rule: `(a + "/" + b).split("/")[1] == b`. */
  lemma SecondSegmentOfPair(a: string, b: string)
    requires '/' !in a && '/' !in b
    ensures SecondSegment(a + "/" + b) == Some(b)
  {
    SplitAfterPiece(a, '/', b);
    SplitNoSeparator(b, '/');
    assert a + "/" + b == a + ['/'] + b;
  }

  /** `c.toLowerCase()` restricted to ASCII letters. */
  function LowerChar(c: char): char {
    if 'A' <= c <= 'Z' then (c as int + 32) as char else c
  }

  /** `s.toLowerCase()` restricted to ASCII letters. */
  function ToLower(s: string): string {
    seq(|s|, i requires 0 <= i < |s| => LowerChar(s[i]))
  }

  /** Lower-casing is idempotent, so a lower-case catalog key is its own lookup key. */
  lemma ToLowerIdempotent(s: string)
    ensures ToLower(ToLower(s)) == ToLower(s)
  {
  }

  /** Lower-casing distributes over concatenation. */
  lemma ToLowerConcat(a: string, b: string)
    ensures ToLower(a + b) == ToLower(a) + ToLower(b)
  {
  }

  /** The decimal digit for `d`. */
  function DigitChar(d: nat): char
    requires d < 10
  {
    "0123456789"[d]
  }

  predicate IsDigits(s: string) {
    forall i :: 0 <= i < |s| ==> '0' <= s[i] <= '9'
  }

  /** The number a string of decimal digits denotes. */
  function DigitsValue(s: string): nat
    requires IsDigits(s)
  {
    if |s| == 0 then 0
    else DigitsValue(s[..|s| - 1]) * 10 + (s[|s| - 1] as int - '0' as int)
  }

  /** The decimal rendering of `n`, as a template literal prints a count. */
  function NatToString(n: nat): (s: string)
    ensures |s| >= 1 && IsDigits(s)
    ensures DigitsValue(s) == n
    ensures n == 0 ==> s == "0"
    ensures n > 0 ==> s[0] != '0'
  {
    if n < 10 then [DigitChar(n)]
    else
      var s := NatToString(n / 10) + [DigitChar(n % 10)];
      assert s[..|s| - 1] == NatToString(n / 10);
      s
  }

  /** Occurrences in a concatenation lie in the left part, in the right part, or across the seam. */
  lemma OccursInConcat(a: string, b: string, w: string, m: int)
    requires Occurs(a + b, w, m)
    ensures || (m + |w| <= |a| && Occurs(a, w, m))
            || (m >= |a| && Occurs(b, w, m - |a|))
            || (m < |a| < m + |w|)
  {
    if m + |w| <= |a| {
      assert (a + b)[m..m + |w|] == a[m..m + |w|];
    } else if m >= |a| {
      assert (a + b)[m..m + |w|] == b[m - |a|..m - |a| + |w|];
    }
  }

  /** Occurrences survive extension on either side. */
  lemma OccursExtended(a: string, b: string, w: string, m: int)
    ensures Occurs(a, w, m) ==> Occurs(a + b, w, m)
    ensures Occurs(b, w, m) ==> Occurs(a + b, w, |a| + m)
  {
    if Occurs(a, w, m) {
      assert (a + b)[m..m + |w|] == a[m..m + |w|];
    }
    if Occurs(b, w, m) {
      assert (a + b)[|a| + m..|a| + m + |w|] == b[m..m + |w|];
    }
  }

  /** An occurrence of `w` covers exactly the characters of `w`. */
  lemma OccursChar(t: string, w: string, m: int, k: int)
    requires Occurs(t, w, m) && m <= k < m + |w|
    ensures t[k] == w[k - m]
  {
    assert t[m..m + |w|][k - m] == t[k];
  }
}

=== FILE: wrappers.dfy ===
/** Failure-compatible result types shared by every module of the installer model. */
module Wrappers {

  /** A value that may be absent, as JavaScript's `undefined`. */
  datatype Option<+T> = None | Some(value: T)

  /** Either a value or the error that prevented computing it. */
  datatype Result<+R, +E> = Ok(value: R) | Err(error: E)
}
